=== FILE: README.md ===
# Incident-analysis tool wrappers: selection and normalisation rules

This project models, in Dafny, the small pure rules inside the incident-analysis agent's API wrappers. It proves the properties those rules promise.

- **GitHub wrapper** (`github_tools.py`, module `GithubTools`):
  - the merged pull-request scan, which stops early at the first pull request last updated before the look-back threshold;
  - the deployment scan, which stops at the first deployment created before the threshold and skips, without stopping, recent deployments to another environment;
  - the case-insensitive service/region substring filter;
  - the incident correlation: the 0–6 hour window, inclusive at both ends, with deployments listed before pull requests and a "no correlations" verdict exactly when the list is empty.
- **Coralogix wrapper** (`coralogix_tools.py`, module `Coralogix`):
  - the client's endpoint and the OpenSearch request body;
  - shaping of the response into logs and total, or empty logs plus the error;
  - the relative windows `now-{n}h` and `now-{n}m`;
  - the two Lucene query builders;
  - `_format_log_results`: the error short-circuit, fallback keys consulted only when the primary key is absent, and removal of `None` values.
- **Lightweight GitHub wrapper** (`github_tools_lightweight.py`, module `GithubLight`):
  - the time filters with their default field values, with no early exit;
  - the rule that one malformed item empties the fetched list;
  - the report, which shows at most three items of each kind, and a verdict that ignores the incident time.
- **Slack events endpoint** (`slack_bot_main.py`, module `SlackEvents`):
  - the order of checks: timestamp parse, five-minute freshness, signature (only when a signing secret is configured), JSON;
  - the signature base string `v0:{timestamp}:{body}`;
  - dispatch on the event type.

Shared pieces:

- `Values`: `Option`, `Result`, a JSON value type with Python truthiness and `dict.get`.
- `Seqs`: subsequences, `s[:n]`, list mapping (`[f(x) for x in s]`) and order-preserving filtering (`[x for x in s if p(x)]`), the reference definitions the list-building loops are proved equal to.
- `Text`: ASCII case mapping, the substring test `in`, `rstrip`.
- `Numerals`: `str(int)` and `int(str)` with their round trip.
- `Values.ParsedTime`: what `datetime.fromisoformat` gives for the incident time: no value (it raises), a naive time (no offset), or an aware time in seconds.

Modelling choices:

- **Time.** Item times are integer seconds, and "now" is a parameter. A JSON timestamp that `datetime.fromisoformat` accepts is the value `JTime(t)`. Every other JSON value in a timestamp position makes the parse raise. The Slack endpoint's clock `time.time()` is a real number of seconds, compared with the 300-second bound.
- **Fetched data.**
  - PyGithub's lists and the HTTP responses are function-typed parameters from URL or repository name to records.
  - HMAC-SHA256 is an uninterpreted function `hmac(key, message)`.
  - An exception that escapes a Flask handler is the reply `InternalError`, meaning HTTP 500.

## Model

| member | source | states |
|---|---|---|
| GithubTools.TargetRepo | github_tools.py:52-57 | Without a client there is no repository; an explicit non-empty repository is returned as given; otherwise the result is `org + "/" + repo` when both are set, and absent when either is missing |
| GithubTools.PrScanEnd | github_tools.py:82-84 | The scan ends at the first pull request that is not a recent merge and was updated before the threshold; every earlier one does not end it |
| GithubTools.RecentMergedPulls | github_tools.py:67-68 | The kept pull requests are an order-preserving subsequence of the scanned ones holding every pull request merged at or after the threshold, and nothing else; it is the generic `Seqs.Filter` with that test |
| GithubTools.PrInfoOf | github_tools.py:68-81 | The reported record copies number, title, URL, merge time, author, branches, counts and labels from the pull request |
| GithubTools.ScanMergedPrs | github_tools.py:65-86 | The scan returns exactly the recent merges of the prefix before the first stopping pull request, in input order, each merged at or after the threshold |
| GithubTools.RecentMergedPrs | github_tools.py:48-90 | Without a resolvable repository the result is empty; otherwise it is exactly the records of the recent merges among the pull requests listed before the first one that stops the scan, in order; each was merged at or after `now - hours` |
| GithubTools.DeployScanEnd | github_tools.py:145-147 | The scan ends at the first deployment created before the threshold; every earlier one is recent |
| GithubTools.SelectedDeployments | github_tools.py:125-126 | The environment filter keeps exactly the deployments to the given environment, in order (all of them when no environment is given); it is the generic `Seqs.Filter` with that test |
| GithubTools.ScanDeployments | github_tools.py:121-149 | The scan returns exactly the environment-selected deployments of the longest recent prefix; a skipped deployment does not end the scan |
| GithubTools.ScanDeploymentsSound | github_tools.py:122-126 | Every deployment the scan returns is recent and, with an environment given, went to exactly that environment |
| GithubTools.DeploymentInfoOf | github_tools.py:128-142 | The status and status description are those of the first listed status, or "unknown" and none when there are no statuses; every other field is copied from the deployment |
| GithubTools.OnlyLatestStatusReported | github_tools.py:128-129 | Statuses listed after the first do not change the record; without statuses it reads "unknown" with no description |
| GithubTools.RecentDeployments | github_tools.py:104-149 | Without a resolvable repository the result is empty; otherwise it is exactly the records of the environment-selected deployments of the longest recent prefix, in order; each is recent and matches the environment filter |
| GithubTools.FilterByServiceRegion | github_tools.py:221-247 | The output is an order-preserving subsequence of the input; it keeps a deployment if and only if the service occurs in its environment, description or ref and, when a region is given, the region occurs in its environment or description; it is the generic `Seqs.Filter` with that match, so each kept deployment appears as often as in the input |
| GithubTools.RegionOnlyNarrows | github_tools.py:237-245 | Giving a region only removes deployments from the service-only result and keeps the order |
| Text.Lower | github_tools.py:229-241 | The result has the input's length and each character lower-cased |
| Text.ContainsIff | github_tools.py:233-241 | The substring test holds exactly when the needle occurs at some offset of the haystack |
| GithubTools.ServiceRegionCaseInsensitive | github_tools.py:229-241 | For every service and region, lower-casing them beforehand does not change the filter's result |
| GithubTools.DeploymentsByServiceRegion | github_tools.py:217-247 | The result is exactly `Seqs.Filter` of the service-and-region match over the default repository's recent deployments: by that filter's contract, an order-preserving subsequence that keeps every matching deployment, with its multiplicity, and nothing else; each result is recent |
| GithubTools.DeploymentCorrelations | github_tools.py:288-299 | Every correlation is for a listed deployment created 0 to 6 hours (inclusive) before the incident, with lead time incident minus creation time; every such deployment correlates |
| GithubTools.PrCorrelations | github_tools.py:301-312 | Every correlation is for a listed pull request merged 0 to 6 hours (inclusive) before the incident, with its lead time; every such pull request correlates |
| GithubTools.DeploymentCorrelationsInOrder | github_tools.py:288-299 | The deployment correlations are exactly the in-window deployments, in input order and with their multiplicity, each mapped to its correlation |
| GithubTools.PrCorrelationsInOrder | github_tools.py:301-312 | The pull-request correlations are exactly the in-window pull requests, in input order and with their multiplicity, each mapped to its correlation |
| GithubTools.Correlations | github_tools.py:288-312 | The list is the in-window deployments' correlations in input order followed by the in-window pull requests' correlations in input order; hence no deployment correlation follows a pull-request one and every correlation lies in the window |
| GithubTools.NoDeploymentCorrelationsIff | github_tools.py:289-299 | There are no deployment correlations exactly when no deployment lies in the window |
| GithubTools.NoPrCorrelationsIff | github_tools.py:302-312 | There are no pull-request correlations exactly when no pull request lies in the window |
| GithubTools.NoCorrelationsIffNothingInWindow | github_tools.py:288-315 | The correlation list is empty exactly when neither a deployment nor a pull request lies in the window |
| GithubTools.VerdictLine | github_tools.py:315-335 | The "No correlations found" line is chosen exactly when the correlation list is empty |
| GithubTools.AnalysisDeployments | github_tools.py:274-278 | Without a service, the deployments analysed are exactly the recent deployments. With one, they are exactly `Seqs.Filter` of the service-and-region match over them. Each is recent |
| GithubTools.Report | github_tools.py:280-335 | For given lists, an unparseable incident time, or a naive one with anything to compare, is an error; an aware time gives exactly `Correlations` of the lists; the verdict is "none" exactly when there are no correlations; the header echoes the incident time, and shows service and region exactly when they are non-empty, with their given values |
| GithubTools.AnalyzeCorrelation | github_tools.py:265-340 | The report is an error exactly when the incident time does not parse, or is naive and some deployment or pull request is fetched; with an aware time the correlations are exactly `Correlations` of the analysed deployments and the 6-hour merged pull requests; a naive time with nothing fetched reports none; the verdict is "none" exactly when there are none, deployment correlations match service and region when a service is given, and the header echoes the incident time and shows service and region exactly when they are non-empty, with their given values |
| GithubTools.RegionAloneFiltersNothing | github_tools.py:276-278 | Without a service, the region does not change the correlations or the verdict |
| Text.RStrip | coralogix_tools.py:38 | The stripped URL is a prefix of the input that does not end in the character, and only that character was removed |
| Coralogix.NewClient | coralogix_tools.py:37-47 | The base URL loses exactly its trailing slashes, the endpoint is base plus `/data/os-api/*/_search`, and the authorization header is `Bearer` plus the key |
| Coralogix.TrailingSlashIgnored | coralogix_tools.py:38 | A base URL with a trailing slash gives the same client as without |
| Coralogix.SearchRoundTrip | coralogix_tools.py:94-123 | Reading the posted body back gives the query, the start and end times, `from` as the offset and `size` as the limit |
| Coralogix.SearchBody | coralogix_tools.py:93-123 | The body decodes to the request with the given query, time range, offset and limit |
| Coralogix.ShapeResponse | coralogix_tools.py:128-130 | One log per hit, in order, each the hit's `_source` (or `{}`); the total is the response's `hits.total.value` when present and 0 otherwise; no error key |
| Coralogix.QueryLogs | coralogix_tools.py:125-133 | A failed request gives the error `API request failed: <reason>` with empty logs and no total; an answered one gives exactly the shaped response |
| Coralogix.SearchHitsReachAgent | coralogix_tools.py:125-130 | For an answered search, the agent receives one record per hit, and reading back `raw_log` gives the hits' `_source` values in order |
| Coralogix.RelativeStartRoundTrip | coralogix_tools.py:153 | The amount is recovered from `now-{n}h` / `now-{n}m` |
| Coralogix.LastHoursWindow | coralogix_tools.py:152-156 | A last-hours search posts `now-{hours}h` to `now`, offset 0 and the given limit; `QueryLogsLastHours` posts exactly this body |
| Coralogix.LastMinutesWindow | coralogix_tools.py:175-179 | A last-minutes search posts `now-{minutes}m` to `now`, offset 0 and the given limit; `QueryLogsLastMinutes` posts exactly this body |
| Coralogix.ErrorQuery | coralogix_tools.py:350-353 | The query always starts with `level:ERROR`, and is exactly that when no non-empty service filter is given |
| Coralogix.ServiceQuery | coralogix_tools.py:382-387 | The query starts with the three-field service clause; it is exactly that clause when no non-empty level is given, and otherwise the clause is followed by ` AND level:` and the upper-cased level |
| Coralogix.ServiceClauseInjective | coralogix_tools.py:382 | Different services give different clauses |
| Coralogix.ErrorQueryJoinsServiceQuery | coralogix_tools.py:350-353 | The filtered error query is `level:ERROR AND ` followed by the by-service query without a level |
| Coralogix.ErrorQueryInjective | coralogix_tools.py:350-353 | Different non-empty service filters give different error queries |
| Coralogix.ServiceQueryLevelCaseInsensitive | coralogix_tools.py:385 | The level's case makes no difference to the query |
| Coralogix.DropNulls | coralogix_tools.py:218-219 | Exactly the keys with non-`None` values remain, with their values |
| Coralogix.FormatLog | coralogix_tools.py:207-220 | A record has only the seven known keys and no `None` value, and `raw_log` is the input log; timestamp and subsystem are copied when present and non-null; level, message, source and computer consult their fallback key only when the primary key is absent, so a null primary drops the field |
| Coralogix.FormatLogResults | coralogix_tools.py:199-222 | An error yields exactly one record carrying it, whatever the logs; otherwise one record per log, in order, each the normalisation `FormatLog` of its log |
| Coralogix.RawLogsRoundTrip | coralogix_tools.py:204-222 | The original logs are read back, in order, from the normalised records |
| Coralogix.FailedQueryFormatsToError | coralogix_tools.py:131-133 | A failed search reaches the agent as the single record `{"error": "API request failed: ..."}` |
| Coralogix.RunTool | coralogix_tools.py:192-196 | Without a client the tool raises "Coralogix client not initialized"; with one it returns exactly the formatted result of the search |
| GithubLight.Gather | github_tools_lightweight.py:45-64 | The result is absent exactly when some item raises; otherwise it is the kept records in input order, neither dropping nor adding any |
| GithubLight.PrRecord | github_tools_lightweight.py:51-58 | The record has the six output keys; title, merged_at and url are copied from `title`, `merged_at` and `html_url`; files_changed, additions and deletions are copied when present and 0 otherwise |
| GithubLight.PrOutcome | github_tools_lightweight.py:47-58 | A pull request is kept exactly when its `merged_at` is a timestamp at or after the threshold (and title and URL exist), and then its record is `PrRecord`; a pull request is skipped exactly when `merged_at` is falsy or a timestamp before the threshold; the lookup fails exactly when a truthy `merged_at` is not a timestamp, or is recent but title or URL is missing |
| GithubLight.GatherPrs | github_tools_lightweight.py:45-64 | When no item raises, the loop gives exactly the records of the pull requests merged since the threshold, in input order |
| GithubLight.RecentMergedPrs | github_tools_lightweight.py:27-64 | Without a client, or when the request fails or is not answered 200, the result is empty; one raising item empties it; otherwise it is exactly the records of the pull requests merged since `now - hours`, in input order |
| GithubLight.DeploymentRecord | github_tools_lightweight.py:85-90 | The record has the four output keys; created_at is copied; environment, ref and description are copied when present, and otherwise "unknown", "unknown" and "" |
| GithubLight.DeploymentOutcome | github_tools_lightweight.py:82-90 | A deployment raises exactly when `created_at` is missing or unparseable, and is kept exactly when created at or after the threshold, with record `DeploymentRecord` |
| GithubLight.GatherDeployments | github_tools_lightweight.py:80-96 | When no item raises, the loop gives exactly the records of the deployments created since the threshold, in input order, whatever precedes them |
| GithubLight.RecentDeployments | github_tools_lightweight.py:66-96 | Without a client, or when the request fails or is not answered 200, the result is empty; one raising item empties it; otherwise it is exactly the records of the deployments created since `now - hours`, in input order |
| GithubLight.AnalyzeCorrelation | github_tools_lightweight.py:98-136 | The error report is given exactly when the incident time does not parse (a naive time is accepted); otherwise the counts are the full list lengths, at most three of each are shown (a prefix of the list), and the verdict is "potential correlation" with both counts and the 6-hour window exactly when something was found, otherwise "no correlation" with the window; the report echoes the incident time, and shows service and region exactly when they are non-empty |
| GithubLight.IncidentTimeIgnored | github_tools_lightweight.py:102-131 | The report is the same whatever parsed incident time, naive or aware, is given |
| SlackEvents.BaseString | slack_bot_main.py:61 | The base string is `v0:`, the timestamp, a colon, then the body |
| SlackEvents.ExpectedSignature | slack_bot_main.py:64-68 | The expected signature is `v0=` followed by the HMAC of the base string under the secret |
| SlackEvents.BaseStringInjective | slack_bot_main.py:61 | For colon-free timestamps the base string determines timestamp and body |
| SlackEvents.ParsedTimestampHasNoColon | slack_bot_main.py:81-85 | A timestamp that `int()` accepts contains no colon |
| Numerals.ParseInt | slack_bot_main.py:85 | `int()` accepts exactly a non-empty digit string, optionally after one sign; the value is the decimal value of the digits, negated after a `-` sign |
| SlackEvents.RejectionsDistinct | slack_bot_main.py:87-99 | The three 400 answers carry different error messages |
| SlackEvents.HandleEvent | slack_bot_main.py:74-116 | An unparseable timestamp is a 500, and so is one too large in magnitude to convert to a float (at least 2^1024 - 2^970), where the subtraction raises `OverflowError`; "too old" is answered exactly when the parsed timestamp converts and is more than 300 s from now; "invalid signature" exactly when the timestamp converts and is fresh, a secret is configured and the signature does not match; "invalid JSON" exactly when an authentic request has no JSON body; a 200 needs an authentic request with an object payload; at most one mention is handled |
| SlackEvents.OverflowingTimestampFails | slack_bot_main.py:85 | A timestamp that parses but does not convert to a float gives a 500 whatever the clock, never "too old" |
| SlackEvents.ShortTimestampsFit | slack_bot_main.py:85 | Every parsing timestamp header of at most 300 characters converts to a float, so the five-minute check applies to it |
| SlackEvents.HugeTimestampsOverflow | slack_bot_main.py:85 | Every timestamp of magnitude at least 10^309 (a "1" followed by 400 zeros, say) fails to convert |
| SlackEvents.Dispatch | slack_bot_main.py:101-116 | A non-object payload is a 500; every handled payload gets 200; a handled mention comes from an `event_callback` whose `event` is an `app_mention` |
| SlackEvents.FiveMinuteBoundary | slack_bot_main.py:85-87 | A timestamp that converts to a float and is exactly 300 s from now, in either direction, is not rejected as too old; any amount further is |
| SlackEvents.NoSecretSkipsSignature | slack_bot_main.py:90-92 | Without a configured secret, neither the signature header nor the HMAC affects the answer |
| SlackEvents.WrongSignatureRejected | slack_bot_main.py:90-92 | With a secret, a fresh request with a float-convertible timestamp whose signature does not match gets 400 "Invalid request signature" |
| SlackEvents.ChallengeEchoed | slack_bot_main.py:102-104 | An authentic `url_verification` request gets its challenge back unchanged, with no mention handled |
| SlackEvents.MentionHandledIff | slack_bot_main.py:107-114 | The mention handler receives an event exactly when the request is authentic, of type `event_callback`, and its event is an `app_mention` |
| SlackEvents.AuthenticPayloadAcknowledged | slack_bot_main.py:101-116 | Every authentic object payload other than `url_verification` whose event (if any) is an object is answered 200 `{"status": "ok"}` |

## Left out

- PyGithub, `requests`, Flask and the Slack and LaunchDarkly SDKs are left out. Their data is passed in as records or function parameters.
- Logging, `print`, and the text layout of the reports (emoji, markdown, SHA truncation, `str(timedelta)`) are left out. The reports are modelled as structured records.
- Date parsing and clocks are not modelled. The value `JTime(t)` stands for an ISO timestamp that parses and compares.
  - A naive item timestamp, which raises when compared with an aware one, is treated as unparseable. The incident time is modelled with naive times kept apart.
  - The lightweight fetchers re-read the clock for every item; the model uses one `now` per call.
- HMAC-SHA256 is uninterpreted. The model compares with `==` where the source uses `hmac.compare_digest`; the source raises on non-ASCII header text, which is not modelled.
- Text.Lower, Text.Upper: only ASCII letters change case. Python's full Unicode case mapping is not modelled.
- Numerals.ParseInt: accepts an optional sign and ASCII digits only. Python's `int()` also accepts surrounding whitespace, underscores and non-ASCII digits.
- GithubTools.AnalyzeCorrelation: when a service is given, the source fetches the deployments a second time for the filter. The model reads the same deployment list twice, so it assumes both fetches agree.
- GithubTools.AnalyzeCorrelation, GithubLight.AnalyzeCorrelation: the incident time arrives already parsed as a `ParsedTime`; the `Z` to `+00:00` rewrite and the ISO grammar are not modelled.
- SlackEvents.HandleEvent: `time.time()` is a real number; the rounding of its float value is not modelled, and a timestamp that converts is compared exactly, without the rounding to 53 bits that converting it to a float applies. The source reads the signing secret once at import time for the HMAC key and again on every request to decide whether to check; the model uses one `secret` for both, so it assumes the environment does not change while the bot runs.
- The exception handlers that turn any PyGithub failure into `[]` or an error string are not modelled. Only the missing-client and missing-repository paths are.
- Coralogix.ShapeResponse: the response is typed. A `hits` or `total` that is not a dictionary, which makes the source raise, is not modelled.
- The agent tools `Coralogix.QueryLogsTool`, `LogsLast24hTool`, `LogsLastHourTool`, `LogsCustomHoursTool`, `ErrorLogs24hTool` and `LogsByServiceTool` are modelled as compositions without contracts of their own. Their properties are those of `RunTool`, the query builders and `FormatLogResults`.
- Also left out:
  - `get_recent_github_commits`, `get_recent_github_activity` and the initialisation and close functions of the GitHub wrappers;
  - `get_lucene_query_examples`;
  - `handle_app_mention`'s lookups of user and channel names (the model records only which event the handler receives);
  - the `/health` and `/` endpoints;
  - the startup checks of the Slack bot.
- `main.py`, `main-coralogix.py`, `incident_analyzer.py`, the LaunchDarkly wrappers and the `test_*.py` scripts are not part of this model. They are prompt text, agent wiring or live-API scripts.

=== FILE: coralogix_tools.dfy ===
/**
  The Coralogix log-search wrapper: the client's endpoint, the OpenSearch
  request body, the shaping of the response into `{"logs", "total"}` or
  `{"logs", "error"}`, the relative time windows, the Lucene queries the
  tools build, and the normalisation of raw log records.

  The HTTP exchange is a parameter `send(url, body)` that either returns
  the decoded response or fails with the reason `requests` gave.
 */
module Coralogix {
  import opened Values
  import Text
  import Numerals
  import Seqs

  // ---------------------------------------------------------------------
  // Client and endpoint
  // ---------------------------------------------------------------------

  const DefaultBaseUrl: string := "https://api.coralogix.com"
  const SearchPath: string := "/data/os-api/*/_search"

  datatype Client = Client(apiKey: string, baseUrl: string, queryEndpoint: string, authorization: string)

  /** `CoralogixClient(api_key, base_url)`: trailing slashes are removed
      from the base URL and the search endpoint is appended to it. */
  function NewClient(apiKey: string, baseUrl: string): (c: Client)
    ensures c.baseUrl <= baseUrl
    ensures |c.baseUrl| == 0 || c.baseUrl[|c.baseUrl| - 1] != '/'
    ensures forall i :: |c.baseUrl| <= i < |baseUrl| ==> baseUrl[i] == '/'
    ensures c.queryEndpoint == c.baseUrl + SearchPath
    ensures c.authorization == "Bearer " + apiKey
  {
    var base := Text.RStrip(baseUrl, '/');
    Client(apiKey, base, base + SearchPath, "Bearer " + apiKey)
  }

  /** A trailing slash on the base URL makes no difference. */
  lemma TrailingSlashIgnored(apiKey: string, baseUrl: string)
    ensures NewClient(apiKey, baseUrl + "/") == NewClient(apiKey, baseUrl)
  {
  }

  // ---------------------------------------------------------------------
  // Request body
  // ---------------------------------------------------------------------

  const TimestampField: string := "coralogix.timestamp"
  const Descending: string := "desc"

  /** What a search request asks for. */
  datatype SearchRequest = SearchRequest(
    query: string, startTime: string, endTime: string, offset: int, limit: int)

  /** The OpenSearch body `query_logs` posts: the Lucene query and the
      time range as filters, `from` the offset, `size` the limit, sorted by
      timestamp, newest first. */
  function EncodeSearch(r: SearchRequest): Json {
    var queryString := JObj(map["query_string" := JObj(map["query" := JStr(r.query)])]);
    var range := JObj(map["range" := JObj(map[TimestampField := JObj(map["gte" := JStr(r.startTime), "lt" := JStr(r.endTime)])])]);
    JObj(map[
      "query" := JObj(map["bool" := JObj(map["filter" := JArr([queryString, range])])]),
      "from" := JInt(r.offset),
      "size" := JInt(r.limit),
      "sort" := JArr([JObj(map[TimestampField := JObj(map["order" := JStr(Descending)])])])
    ])
  }

  /** `j[k]` on an object, `None` (JSON null) otherwise. */
  function Field(j: Json, k: string): Json {
    if j.JObj? && k in j.fields then j.fields[k] else JNull
  }

  /** `j[n]` on an array, `None` (JSON null) otherwise. */
  function Item(j: Json, n: nat): Json {
    if j.JArr? && n < |j.items| then j.items[n] else JNull
  }

  /** Reads a search request back from a body of the shape above. */
  function DecodeSearch(j: Json): Option<SearchRequest> {
    var filters := Field(Field(Field(j, "query"), "bool"), "filter");
    var query := Field(Field(Item(filters, 0), "query_string"), "query");
    var range := Field(Field(Item(filters, 1), "range"), TimestampField);
    var gte := Field(range, "gte");
    var lt := Field(range, "lt");
    var from := Field(j, "from");
    var size := Field(j, "size");
    var order := Field(Field(Item(Field(j, "sort"), 0), TimestampField), "order");
    if query.JStr? && gte.JStr? && lt.JStr? && from.JInt? && size.JInt? && order == JStr(Descending) then
      Some(SearchRequest(query.s, gte.s, lt.s, from.i, size.i))
    else None
  }

  lemma SearchRoundTrip(r: SearchRequest)
    ensures DecodeSearch(EncodeSearch(r)) == Some(r)
  {
  }

  /** The body of `query_logs(lucene_query, start_time, end_time, limit,
      offset)`: `from` carries the offset and `size` the limit. */
  function SearchBody(query: string, startTime: string, endTime: string, limit: int, offset: int): (b: Json)
    ensures DecodeSearch(b) == Some(SearchRequest(query, startTime, endTime, offset, limit))
  {
    SearchRoundTrip(SearchRequest(query, startTime, endTime, offset, limit));
    EncodeSearch(SearchRequest(query, startTime, endTime, offset, limit))
  }

  // ---------------------------------------------------------------------
  // Response shaping
  // ---------------------------------------------------------------------

  datatype Hit = Hit(source: Option<Object>)
  datatype HitsTotal = HitsTotal(value: Option<Json>)
  datatype Hits = Hits(hits: Option<seq<Hit>>, total: Option<HitsTotal>)

  /** The decoded OpenSearch response; `None` marks an absent key. */
  datatype SearchResponse = SearchResponse(hits: Option<Hits>)

  /** The outcome of posting a request: a decoded response, or a failure
      with the reason the HTTP layer gave. */
  datatype Reply = Replied(response: SearchResponse) | Failed(reason: string)

  /** The dictionary `query_logs` returns; `None` marks an absent key. */
  datatype LogResults = LogResults(logs: Option<seq<Object>>, total: Option<Json>, error: Option<Json>)

  const ApiFailurePrefix: string := "API request failed: "

  function HitList(resp: SearchResponse): seq<Hit> {
    if resp.hits.Some? then resp.hits.value.hits.GetOr([]) else []
  }

  /** `hit.get("_source", {})`. */
  function SourceOf(hit: Hit): Object {
    hit.source.GetOr(map[])
  }

  /** The logs and total of a successful search: one log per hit, in order,
      and the response's `hits.total.value`, or 0 when the response has
      none. */
  function ShapeResponse(resp: SearchResponse): (r: LogResults)
    ensures r.error.None? && r.logs.Some? && r.total.Some?
    ensures |r.logs.value| == |HitList(resp)|
    ensures forall i :: 0 <= i < |HitList(resp)| ==> r.logs.value[i] == SourceOf(HitList(resp)[i])
    ensures (resp.hits.None? || resp.hits.value.total.None? || resp.hits.value.total.value.value.None?)
      ==> r.total == Some(JInt(0))
    ensures resp.hits.Some? && resp.hits.value.total.Some? && resp.hits.value.total.value.value.Some?
      ==> r.total == resp.hits.value.total.value.value
  {
    var hits := HitList(resp);
    var logs := seq(|hits|, i requires 0 <= i < |hits| => SourceOf(hits[i]));
    var total :=
      if resp.hits.Some? && resp.hits.value.total.Some? then resp.hits.value.total.value.value.GetOr(JInt(0))
      else JInt(0);
    LogResults(Some(logs), Some(total), None)
  }

  /** `CoralogixClient.query_logs`: a failed request is reported as no logs
      plus the error, never raised. */
  function QueryLogs(
    client: Client, send: (string, Json) -> Reply,
    query: string, startTime: string, endTime: string, limit: int, offset: int): (r: LogResults)
    ensures r.logs.Some?
    ensures r.error.Some? <==> send(client.queryEndpoint, SearchBody(query, startTime, endTime, limit, offset)).Failed?
    ensures r.error.Some? ==> r.logs == Some([]) && r.total.None?
    ensures match send(client.queryEndpoint, SearchBody(query, startTime, endTime, limit, offset))
      case Failed(reason) => r.error == Some(JStr(ApiFailurePrefix + reason))
      case Replied(resp) => r == ShapeResponse(resp)
  {
    PostSearch(client, send, SearchBody(query, startTime, endTime, limit, offset))
  }

  /** Posts a search body to the query endpoint and shapes the reply; a
      failed request becomes the error result. */
  function PostSearch(client: Client, send: (string, Json) -> Reply, body: Json): LogResults {
    match send(client.queryEndpoint, body)
    case Failed(reason) => LogResults(Some([]), None, Some(JStr(ApiFailurePrefix + reason)))
    case Replied(resp) => ShapeResponse(resp)
  }

  // ---------------------------------------------------------------------
  // Relative time windows
  // ---------------------------------------------------------------------

  /** `f"now-{hours}h"` and `f"now-{minutes}m"`. */
  function RelativeStart(amount: int, unit: char): string {
    "now-" + Numerals.IntToString(amount) + [unit]
  }

  const Now: string := "now"

  /** Reads back the amount of a relative start time with the given unit. */
  function ParseRelativeStart(s: string, unit: char): Option<int> {
    if |s| >= 5 && s[..4] == "now-" && s[|s| - 1] == unit then Numerals.ParseInt(s[4..|s| - 1])
    else None
  }

  lemma RelativeStartRoundTrip(amount: int, unit: char)
    ensures ParseRelativeStart(RelativeStart(amount, unit), unit) == Some(amount)
  {
    var s := RelativeStart(amount, unit);
    assert s[4..|s| - 1] == Numerals.IntToString(amount);
    Numerals.IntToStringRoundTrip(amount);
  }

  /** The body `query_logs_last_hours(query, hours, limit)` posts. */
  function LastHoursBody(query: string, hours: int, limit: int): Json {
    SearchBody(query, RelativeStart(hours, 'h'), Now, limit, 0)
  }

  /** The body `query_logs_last_minutes(query, minutes, limit)` posts. */
  function LastMinutesBody(query: string, minutes: int, limit: int): Json {
    SearchBody(query, RelativeStart(minutes, 'm'), Now, limit, 0)
  }

  /** A last-hours search covers `now-{hours}h` up to `now`, from the first
      result, at most `limit` results. */
  lemma LastHoursWindow(query: string, hours: int, limit: int)
    ensures DecodeSearch(LastHoursBody(query, hours, limit)).Some?
    ensures
      var r := DecodeSearch(LastHoursBody(query, hours, limit)).value;
      && r.query == query
      && ParseRelativeStart(r.startTime, 'h') == Some(hours)
      && r.endTime == Now
      && r.offset == 0
      && r.limit == limit
  {
    RelativeStartRoundTrip(hours, 'h');
  }

  /** A last-minutes search covers `now-{minutes}m` up to `now`. */
  lemma LastMinutesWindow(query: string, minutes: int, limit: int)
    ensures DecodeSearch(LastMinutesBody(query, minutes, limit)).Some?
    ensures
      var r := DecodeSearch(LastMinutesBody(query, minutes, limit)).value;
      && r.query == query
      && ParseRelativeStart(r.startTime, 'm') == Some(minutes)
      && r.endTime == Now
      && r.offset == 0
      && r.limit == limit
  {
    RelativeStartRoundTrip(minutes, 'm');
  }

  /** `query_logs_last_hours(query, hours, limit)`: posts `LastHoursBody`. */
  function QueryLogsLastHours(client: Client, send: (string, Json) -> Reply, query: string, hours: int, limit: int): (r: LogResults)
    ensures r == QueryLogs(client, send, query, RelativeStart(hours, 'h'), Now, limit, 0)
  {
    PostSearch(client, send, LastHoursBody(query, hours, limit))
  }

  /** `query_logs_last_minutes(query, minutes, limit)`: posts `LastMinutesBody`. */
  function QueryLogsLastMinutes(client: Client, send: (string, Json) -> Reply, query: string, minutes: int, limit: int): (r: LogResults)
    ensures r == QueryLogs(client, send, query, RelativeStart(minutes, 'm'), Now, limit, 0)
  {
    PostSearch(client, send, LastMinutesBody(query, minutes, limit))
  }

  // ---------------------------------------------------------------------
  // Lucene queries
  // ---------------------------------------------------------------------

  const ErrorLevelQuery: string := "level:ERROR"

  /** The service matched against the three fields that may carry it. */
  function ServiceClause(service: string): string {
    "(service:" + service + " OR source:" + service + " OR application:" + service + ")"
  }

  /** Distinct services give distinct clauses. */
  lemma ServiceClauseInjective(a: string, b: string)
    requires ServiceClause(a) == ServiceClause(b)
    ensures a == b
  {
    assert |ServiceClause(a)| == 3 * |a| + 37;
    assert |ServiceClause(b)| == 3 * |b| + 37;
    assert ServiceClause(a)[9..9 + |a|] == a;
    assert ServiceClause(b)[9..9 + |b|] == b;
  }

  /** The query of `query_coralogix_error_logs_24h`. */
  function ErrorQuery(serviceFilter: Option<string>): (q: string)
    ensures ErrorLevelQuery <= q
    ensures q == ErrorLevelQuery <==> !Given(serviceFilter)
  {
    if Given(serviceFilter) then ErrorLevelQuery + " AND " + ServiceClause(serviceFilter.value)
    else ErrorLevelQuery
  }

  /** The query of `query_coralogix_logs_by_service`. */
  function ServiceQuery(service: string, level: Option<string>): (q: string)
    ensures ServiceClause(service) <= q
    ensures q == ServiceClause(service) <==> !Given(level)
    ensures Given(level) ==> q[|ServiceClause(service)|..] == " AND level:" + Text.Upper(level.value)
  {
    if Given(level) then ServiceClause(service) + " AND level:" + Text.Upper(level.value)
    else ServiceClause(service)
  }

  /** The filtered error query is the error level joined to the service
      query without a level. */
  lemma ErrorQueryJoinsServiceQuery(service: string)
    requires service != ""
    ensures ErrorQuery(Some(service)) == ErrorLevelQuery + " AND " + ServiceQuery(service, None)
  {
  }

  /** Distinct service filters give distinct error queries. */
  lemma ErrorQueryInjective(a: string, b: string)
    requires a != "" && b != ""
    requires ErrorQuery(Some(a)) == ErrorQuery(Some(b))
    ensures a == b
  {
    var prefix := ErrorLevelQuery + " AND ";
    assert ErrorQuery(Some(a))[|prefix|..] == ServiceClause(a);
    assert ErrorQuery(Some(b))[|prefix|..] == ServiceClause(b);
    ServiceClauseInjective(a, b);
  }

  /** The level is upper-cased, so its case makes no difference. */
  lemma ServiceQueryLevelCaseInsensitive(service: string, level: string)
    ensures ServiceQuery(service, Some(level)) == ServiceQuery(service, Some(Text.Upper(level)))
  {
    Text.UpperIdempotent(level);
  }

  // ---------------------------------------------------------------------
  // Log normalisation
  // ---------------------------------------------------------------------

  const RawLogField: string := "raw_log"
  const ErrorField: string := "error"

  /** The keys a normalised log record can have. */
  const FormattedFields: set<string> :=
    {"timestamp", "level", "message", "source", "subsystem", "computer", RawLogField}

  /** `log.get(primary, log.get(fallback))`. */
  function Pick(log: Object, primary: string, fallback: string): Json {
    Get(log, primary, Get(log, fallback, JNull))
  }

  /** No field of the record holds `None`. */
  predicate NoNulls(o: Object) {
    forall k :: k in o ==> o[k] != JNull
  }

  /** The dictionary without its `None` values. */
  function DropNulls(m: Object): (r: Object)
    ensures forall k :: k in r <==> k in m && m[k] != JNull
    ensures forall k :: k in r ==> r[k] == m[k]
  {
    map k | k in m && m[k] != JNull :: m[k]
  }

  /** A field copied from the key of the same name: present exactly when
      the log holds a non-null value for it. */
  ghost predicate CopiedField(log: Object, out: Object, key: string) {
    && (key in out <==> key in log && log[key] != JNull)
    && (key in out ==> out[key] == log[key])
  }

  /** A field with a fallback key: the fallback is consulted only when the
      primary key is absent, so a primary key holding `None` hides the
      fallback and the field is dropped. */
  ghost predicate FallbackField(log: Object, out: Object, primary: string, fallback: string) {
    && (primary in log ==> CopiedField(log, out, primary))
    && (primary !in log ==>
          && (primary in out <==> fallback in log && log[fallback] != JNull)
          && (primary in out ==> out[primary] == log[fallback]))
  }

  /** One record of `_format_log_results`. */
  function FormatLog(log: Object): (r: Object)
    ensures r.Keys <= FormattedFields
    ensures RawLogField in r && r[RawLogField] == JObj(log)
    ensures NoNulls(r)
    ensures CopiedField(log, r, "timestamp")
    ensures CopiedField(log, r, "subsystem")
    ensures FallbackField(log, r, "level", "severity")
    ensures FallbackField(log, r, "message", "text")
    ensures FallbackField(log, r, "source", "application")
    ensures FallbackField(log, r, "computer", "host")
  {
    DropNulls(Projected(log))
  }

  /** The record before its `None` values are dropped. */
  function Projected(log: Object): (m: Object)
    ensures m.Keys == FormattedFields
    ensures m["timestamp"] == Get(log, "timestamp", JNull)
    ensures m["subsystem"] == Get(log, "subsystem", JNull)
    ensures m["level"] == Pick(log, "level", "severity")
    ensures m["message"] == Pick(log, "message", "text")
    ensures m["source"] == Pick(log, "source", "application")
    ensures m["computer"] == Pick(log, "computer", "host")
    ensures m[RawLogField] == JObj(log)
  {
    map[
      "timestamp" := Get(log, "timestamp", JNull),
      "level" := Pick(log, "level", "severity"),
      "message" := Pick(log, "message", "text"),
      "source" := Pick(log, "source", "application"),
      "subsystem" := Get(log, "subsystem", JNull),
      "computer" := Pick(log, "computer", "host"),
      RawLogField := JObj(log)
    ]
  }

  /** `_format_log_results`: an error short-circuits to a single record
      carrying it; otherwise one normalised record per log, in order. */
  function FormatLogResults(results: LogResults): (r: seq<Object>)
    ensures results.error.Some? ==> r == [map[ErrorField := results.error.value]]
    ensures results.error.None? ==>
      && |r| == |results.logs.GetOr([])|
      && forall i :: 0 <= i < |r| ==> RawLogField in r[i] && r[i][RawLogField] == JObj(results.logs.GetOr([])[i])
    ensures results.error.None? ==> forall i :: 0 <= i < |r| ==> NoNulls(r[i])
    ensures results.error.None? ==> forall i :: 0 <= i < |r| ==> r[i] == FormatLog(results.logs.GetOr([])[i])
  {
    if results.error.Some? then [map[ErrorField := results.error.value]]
    else Seqs.Map(FormatLog, results.logs.GetOr([]))
  }

  /** The original logs, read back from the normalised records. */
  function RawLogs(records: seq<Object>): seq<Object> {
    if |records| == 0 then []
    else
      var rest := RawLogs(records[1..]);
      if RawLogField in records[0] && records[0][RawLogField].JObj? then [records[0][RawLogField].fields] + rest
      else rest
  }

  /** Normalisation keeps every original log, in order. */
  lemma RawLogsRoundTrip(logs: seq<Object>)
    ensures RawLogs(FormatLogResults(LogResults(Some(logs), None, None))) == logs
  {
    RawLogsOfRecords(Seqs.Map(FormatLog, logs), logs);
  }

  /** Records that carry the logs, one each and in order, under `raw_log`
      give those logs back. */
  lemma {:induction false} RawLogsOfRecords(records: seq<Object>, logs: seq<Object>)
    requires |records| == |logs|
    requires forall i :: 0 <= i < |records| ==> RawLogField in records[i] && records[i][RawLogField] == JObj(logs[i])
    ensures RawLogs(records) == logs
    decreases |records|
  {
    if |records| > 0 {
      RawLogsOfRecords(records[1..], logs[1..]);
      assert [logs[0]] + logs[1..] == logs;
    }
  }

  /** A failed search reaches the agent as exactly one record carrying the
      failure. */
  lemma FailedQueryFormatsToError(
    client: Client, send: (string, Json) -> Reply,
    query: string, startTime: string, endTime: string, limit: int, offset: int)
    requires send(client.queryEndpoint, SearchBody(query, startTime, endTime, limit, offset)).Failed?
    ensures FormatLogResults(QueryLogs(client, send, query, startTime, endTime, limit, offset))
         == [map[ErrorField := JStr(ApiFailurePrefix + send(client.queryEndpoint, SearchBody(query, startTime, endTime, limit, offset)).reason)]]
  {
  }

  /** What a successful search hands to the agent: one record per hit, in
      order, each keeping the hit's `_source` under `raw_log`. */
  lemma SearchHitsReachAgent(
    client: Client, send: (string, Json) -> Reply,
    query: string, startTime: string, endTime: string, limit: int, offset: int)
    requires send(client.queryEndpoint, SearchBody(query, startTime, endTime, limit, offset)).Replied?
    ensures
      var resp := send(client.queryEndpoint, SearchBody(query, startTime, endTime, limit, offset)).response;
      var records := FormatLogResults(QueryLogs(client, send, query, startTime, endTime, limit, offset));
      && |records| == |HitList(resp)|
      && RawLogs(records) == Seqs.Map(SourceOf, HitList(resp))
  {
    var resp := send(client.queryEndpoint, SearchBody(query, startTime, endTime, limit, offset)).response;
    var logs := ShapeResponse(resp).logs.value;
    assert logs == Seqs.Map(SourceOf, HitList(resp));
    RawLogsOfRecords(FormatLogResults(ShapeResponse(resp)), logs);
  }

  // ---------------------------------------------------------------------
  // Agent tools
  // ---------------------------------------------------------------------

  const ClientMissing: string := "Coralogix client not initialized. Call init_coralogix_client() first."

  /** A tool reading the shared client: raises when it was never
      initialised, otherwise formats the results of its search. */
  function RunTool(client: Option<Client>, search: Client -> LogResults): (r: Result<seq<Object>>)
    ensures client.None? <==> r.Raised?
    ensures client.None? ==> r.message == ClientMissing
    ensures client.Some? ==> r == Ok(FormatLogResults(search(client.value)))
  {
    if client.None? then Raised(ClientMissing) else Ok(FormatLogResults(search(client.value)))
  }

  /** `query_coralogix_logs(lucene_query, start_time, end_time, limit)`. */
  function QueryLogsTool(
    client: Option<Client>, send: (string, Json) -> Reply,
    query: string, startTime: string, endTime: string, limit: int): Result<seq<Object>>
  {
    RunTool(client, c => QueryLogs(c, send, query, startTime, endTime, limit, 0))
  }

  /** `query_coralogix_logs_last_24h(lucene_query, limit)`. */
  function LogsLast24hTool(client: Option<Client>, send: (string, Json) -> Reply, query: string, limit: int): Result<seq<Object>> {
    RunTool(client, c => QueryLogsLastHours(c, send, query, 24, limit))
  }

  /** `query_coralogix_logs_last_hour(lucene_query, limit)`. */
  function LogsLastHourTool(client: Option<Client>, send: (string, Json) -> Reply, query: string, limit: int): Result<seq<Object>> {
    RunTool(client, c => QueryLogsLastMinutes(c, send, query, 60, limit))
  }

  /** `query_coralogix_logs_custom_hours(lucene_query, hours, limit)`. */
  function LogsCustomHoursTool(client: Option<Client>, send: (string, Json) -> Reply, query: string, hours: int, limit: int): Result<seq<Object>> {
    RunTool(client, c => QueryLogsLastHours(c, send, query, hours, limit))
  }

  /** `query_coralogix_error_logs_24h(service_filter, limit)`. */
  function ErrorLogs24hTool(client: Option<Client>, send: (string, Json) -> Reply, serviceFilter: Option<string>, limit: int): Result<seq<Object>> {
    RunTool(client, c => QueryLogsLastHours(c, send, ErrorQuery(serviceFilter), 24, limit))
  }

  /** `query_coralogix_logs_by_service(service_name, hours, log_level, limit)`. */
  function LogsByServiceTool(
    client: Option<Client>, send: (string, Json) -> Reply,
    service: string, hours: int, level: Option<string>, limit: int): Result<seq<Object>>
  {
    RunTool(client, c => QueryLogsLastHours(c, send, ServiceQuery(service, level), hours, limit))
  }
}

=== FILE: github_tools.dfy ===
/**
  The selection rules of the GitHub wrapper: the merged pull-request scan
  and the deployment scan (both stop at the first record older than the
  look-back threshold), the service/region deployment filter, and the
  six-hour incident correlation window.

  The PyGithub objects become the records `PullRequest` and `Deployment`;
  the paginated lists the API returns are passed in as functions from a
  repository name ("owner/repo") to the list, in the API's order. Times are
  integer seconds, and "now" is a parameter.
 */
module GithubTools {
  import opened Values
  import Text
  import Seqs
  import Numerals

  /** The default repository stored with the shared client. */
  datatype Client = Client(org: Option<string>, repo: Option<string>)

  /** The repository the fetchers read: the explicit argument if given,
      else "org/repo" from the client. `None` means the fetcher returns an
      empty list without fetching, which is also what happens when the
      client was never initialised. */
  function TargetRepo(client: Option<Client>, repo: Option<string>): (r: Option<string>)
    ensures client.None? ==> r.None?
    ensures client.Some? && Given(repo) ==> r == repo
    ensures client.Some? && !Given(repo) ==>
      (r.Some? <==> Given(client.value.org) && Given(client.value.repo))
    ensures client.Some? && !Given(repo) && Given(client.value.org) && Given(client.value.repo) ==>
      r == Some(client.value.org.value + "/" + client.value.repo.value)
  {
    if client.None? then None
    else if Given(repo) then repo
    else if Given(client.value.org) && Given(client.value.repo) then
      Some(client.value.org.value + "/" + client.value.repo.value)
    else None
  }

  // ---------------------------------------------------------------------
  // Merged pull requests
  // ---------------------------------------------------------------------

  datatype PullRequest = PullRequest(
    number: int,
    title: string,
    url: string,
    mergedAt: Option<int>,
    updatedAt: int,
    author: string,
    branch: string,
    baseBranch: string,
    commits: int,
    changedFiles: int,
    additions: int,
    deletions: int,
    labels: seq<string>)

  /** The record the scan reports for a merged pull request. */
  datatype PrInfo = PrInfo(
    number: int,
    title: string,
    url: string,
    mergedAt: int,
    author: string,
    branch: string,
    baseBranch: string,
    commits: int,
    changedFiles: int,
    additions: int,
    deletions: int,
    labels: seq<string>)

  /** The reported record copies every field it shows from the pull
      request, with the merge time present. */
  function PrInfoOf(pr: PullRequest): (r: PrInfo)
    requires pr.mergedAt.Some?
    ensures Some(r.mergedAt) == pr.mergedAt
    ensures r.number == pr.number && r.title == pr.title && r.url == pr.url
    ensures r.author == pr.author && r.branch == pr.branch && r.baseBranch == pr.baseBranch
    ensures r.commits == pr.commits && r.changedFiles == pr.changedFiles
    ensures r.additions == pr.additions && r.deletions == pr.deletions && r.labels == pr.labels
  {
    PrInfo(pr.number, pr.title, pr.url, pr.mergedAt.value, pr.author, pr.branch,
           pr.baseBranch, pr.commits, pr.changedFiles, pr.additions, pr.deletions,
           pr.labels)
  }

  function PrRecords(ps: seq<PullRequest>): (r: seq<PrInfo>)
    requires forall i :: 0 <= i < |ps| ==> ps[i].mergedAt.Some?
  {
    seq(|ps|, i requires 0 <= i < |ps| => PrInfoOf(ps[i]))
  }

  predicate RecentMerge(pr: PullRequest, since: int) {
    pr.mergedAt.Some? && pr.mergedAt.value >= since
  }

  /** A pull request that is not a recent merge and was last updated before
      the threshold ends the scan: the list is sorted by update time,
      newest first. */
  predicate EndsPrScan(pr: PullRequest, since: int) {
    !RecentMerge(pr, since) && pr.updatedAt < since
  }

  /** Position of the first pull request that ends the scan, or the length
      of the list when there is none. */
  function PrScanEnd(pulls: seq<PullRequest>, since: int): (k: nat)
    ensures k <= |pulls|
    ensures forall i :: 0 <= i < k ==> !EndsPrScan(pulls[i], since)
    ensures k < |pulls| ==> EndsPrScan(pulls[k], since)
    decreases |pulls|
  {
    if |pulls| == 0 || EndsPrScan(pulls[0], since) then 0
    else 1 + PrScanEnd(pulls[1..], since)
  }

  function RecentMergeSince(since: int): PullRequest -> bool {
    (pr: PullRequest) => RecentMerge(pr, since)
  }

  /** The recent merges of a list, in the list's order. */
  function RecentMergedPulls(pulls: seq<PullRequest>, since: int): (r: seq<PullRequest>)
    ensures Seqs.IsSubseq(r, pulls)
    ensures forall j :: 0 <= j < |r| ==> RecentMerge(r[j], since)
    ensures forall i :: 0 <= i < |pulls| && RecentMerge(pulls[i], since) ==> pulls[i] in r
  {
    Seqs.Filter(RecentMergeSince(since), pulls)
  }

  /** The loop of `get_recent_github_merged_prs`: report every recent merge
      and stop at the first pull request that ends the scan. */
  function ScanMergedPrs(pulls: seq<PullRequest>, since: int): (r: seq<PrInfo>)
    ensures forall j :: 0 <= j < |r| ==> r[j].mergedAt >= since
    ensures r == PrRecords(RecentMergedPulls(pulls[..PrScanEnd(pulls, since)], since))
    decreases |pulls|
  {
    if |pulls| == 0 then []
    else if EndsPrScan(pulls[0], since) then []
    else
      var rest := ScanMergedPrs(pulls[1..], since);
      PrScanStep(pulls, since);
      if RecentMerge(pulls[0], since) then
        PrRecordsCons(pulls[0], RecentMergedPulls(pulls[1..][..PrScanEnd(pulls[1..], since)], since));
        [PrInfoOf(pulls[0])] + rest
      else rest
  }

  /** Scanning a list whose head does not end the scan keeps the head when
      it is a recent merge, ahead of what scanning the tail keeps. */
  lemma PrScanStep(pulls: seq<PullRequest>, since: int)
    requires |pulls| > 0 && !EndsPrScan(pulls[0], since)
    ensures RecentMerge(pulls[0], since) ==>
      RecentMergedPulls(pulls[..PrScanEnd(pulls, since)], since)
      == [pulls[0]] + RecentMergedPulls(pulls[1..][..PrScanEnd(pulls[1..], since)], since)
    ensures !RecentMerge(pulls[0], since) ==>
      RecentMergedPulls(pulls[..PrScanEnd(pulls, since)], since)
      == RecentMergedPulls(pulls[1..][..PrScanEnd(pulls[1..], since)], since)
  {
    var prefix := pulls[..PrScanEnd(pulls, since)];
    assert prefix[0] == pulls[0];
    assert prefix[1..] == pulls[1..][..PrScanEnd(pulls[1..], since)];
  }

  lemma PrRecordsCons(pr: PullRequest, ps: seq<PullRequest>)
    requires pr.mergedAt.Some? && forall i :: 0 <= i < |ps| ==> ps[i].mergedAt.Some?
    ensures PrRecords([pr] + ps) == [PrInfoOf(pr)] + PrRecords(ps)
  {
  }

  /** `get_recent_github_merged_prs(hours, repo)`. */
  function RecentMergedPrs(
    client: Option<Client>, repo: Option<string>,
    pullsOf: string -> seq<PullRequest>, now: int, hours: int): (r: seq<PrInfo>)
    ensures TargetRepo(client, repo).None? ==> r == []
    ensures forall j :: 0 <= j < |r| ==> r[j].mergedAt >= SinceTime(now, hours)
    ensures TargetRepo(client, repo).Some? ==>
      var pulls := pullsOf(TargetRepo(client, repo).value);
      var since := SinceTime(now, hours);
      r == PrRecords(RecentMergedPulls(pulls[..PrScanEnd(pulls, since)], since))
  {
    match TargetRepo(client, repo)
    case None => []
    case Some(name) => ScanMergedPrs(pullsOf(name), SinceTime(now, hours))
  }

  // ---------------------------------------------------------------------
  // Deployments
  // ---------------------------------------------------------------------

  datatype DeploymentStatus = DeploymentStatus(state: string, description: Option<string>)

  datatype Deployment = Deployment(
    id: int,
    sha: string,
    ref: Option<string>,
    environment: Option<string>,
    createdAt: int,
    updatedAt: Option<int>,
    creator: Option<string>,
    description: Option<string>,
    statuses: seq<DeploymentStatus>,
    url: string)

  /** The record the scan reports for a deployment; `status` is the state
      of the latest status, or "unknown" when there is none. */
  datatype DeploymentInfo = DeploymentInfo(
    id: int,
    sha: string,
    ref: Option<string>,
    environment: Option<string>,
    createdAt: int,
    updatedAt: Option<int>,
    creator: Option<string>,
    description: Option<string>,
    status: string,
    statusDescription: Option<string>,
    url: string)

  const UnknownStatus: string := "unknown"

  /** The reported record: the deployment's own fields, and the state and
      description of its latest status, which the API lists first. */
  function DeploymentInfoOf(d: Deployment): (r: DeploymentInfo)
    ensures r.status == if |d.statuses| > 0 then d.statuses[0].state else UnknownStatus
    ensures r.statusDescription == if |d.statuses| > 0 then d.statuses[0].description else None
    ensures r.id == d.id && r.sha == d.sha && r.ref == d.ref && r.environment == d.environment
    ensures r.createdAt == d.createdAt && r.updatedAt == d.updatedAt && r.creator == d.creator
    ensures r.description == d.description && r.url == d.url
  {
    var latest: Option<DeploymentStatus> := if |d.statuses| > 0 then Some(d.statuses[0]) else None;
    DeploymentInfo(
      d.id, d.sha, d.ref, d.environment, d.createdAt, d.updatedAt, d.creator, d.description,
      if latest.Some? then latest.value.state else UnknownStatus,
      if latest.Some? then latest.value.description else None,
      d.url)
  }

  /** Only the latest status is reported: statuses listed after it do not
      change the record, and a deployment without statuses reads as
      "unknown" with no status description. */
  lemma OnlyLatestStatusReported(d: Deployment, older: seq<DeploymentStatus>)
    ensures |d.statuses| > 0 ==>
      DeploymentInfoOf(d.(statuses := d.statuses + older)) == DeploymentInfoOf(d)
    ensures |d.statuses| == 0 ==>
      DeploymentInfoOf(d).status == UnknownStatus && DeploymentInfoOf(d).statusDescription.None?
  {
  }

  function DeploymentRecords(ds: seq<Deployment>): (r: seq<DeploymentInfo>)
    decreases |ds|
  {
    if |ds| == 0 then [] else [DeploymentInfoOf(ds[0])] + DeploymentRecords(ds[1..])
  }

  /** The environment filter: with an environment given, only deployments
      to exactly that environment are reported. */
  predicate EnvSelected(d: Deployment, environment: Option<string>) {
    !Given(environment) || d.environment == environment
  }

  /** Position of the first deployment created before the threshold (which
      ends the scan: the list is sorted by creation time, newest first), or
      the length of the list. */
  function DeployScanEnd(ds: seq<Deployment>, since: int): (k: nat)
    ensures k <= |ds|
    ensures forall i :: 0 <= i < k ==> ds[i].createdAt >= since
    ensures k < |ds| ==> ds[k].createdAt < since
    decreases |ds|
  {
    if |ds| == 0 || ds[0].createdAt < since then 0
    else 1 + DeployScanEnd(ds[1..], since)
  }

  /** The deployments of a list that pass the environment filter, in order. */
  function SelectedDeployments(ds: seq<Deployment>, environment: Option<string>): (r: seq<Deployment>)
    ensures Seqs.IsSubseq(r, ds)
    ensures forall j :: 0 <= j < |r| ==> EnvSelected(r[j], environment)
    ensures forall i :: 0 <= i < |ds| && EnvSelected(ds[i], environment) ==> ds[i] in r
  {
    Seqs.Filter(EnvFilter(environment), ds)
  }

  function EnvFilter(environment: Option<string>): Deployment -> bool {
    (d: Deployment) => EnvSelected(d, environment)
  }

  /** The loop of `get_recent_github_deployments`: a recent deployment to
      another environment is skipped and the scan goes on; the first
      deployment older than the threshold ends it. */
  function ScanDeployments(ds: seq<Deployment>, since: int, environment: Option<string>): (r: seq<DeploymentInfo>)
    ensures r == DeploymentRecords(SelectedDeployments(ds[..DeployScanEnd(ds, since)], environment))
    decreases |ds|
  {
    if |ds| == 0 then []
    else if ds[0].createdAt >= since then
      var rest := ScanDeployments(ds[1..], since, environment);
      DeployScanStep(ds, since, environment);
      if !EnvSelected(ds[0], environment) then rest
      else
        DeploymentRecordsCons(ds[0], SelectedDeployments(ds[1..][..DeployScanEnd(ds[1..], since)], environment));
        [DeploymentInfoOf(ds[0])] + rest
    else []
  }

  /** Scanning a list whose head is recent selects the head (when its
      environment matches) ahead of what scanning the tail selects. */
  lemma DeployScanStep(ds: seq<Deployment>, since: int, environment: Option<string>)
    requires |ds| > 0 && ds[0].createdAt >= since
    ensures EnvSelected(ds[0], environment) ==>
      SelectedDeployments(ds[..DeployScanEnd(ds, since)], environment)
      == [ds[0]] + SelectedDeployments(ds[1..][..DeployScanEnd(ds[1..], since)], environment)
    ensures !EnvSelected(ds[0], environment) ==>
      SelectedDeployments(ds[..DeployScanEnd(ds, since)], environment)
      == SelectedDeployments(ds[1..][..DeployScanEnd(ds[1..], since)], environment)
  {
    var prefix := ds[..DeployScanEnd(ds, since)];
    assert prefix[0] == ds[0];
    assert prefix[1..] == ds[1..][..DeployScanEnd(ds[1..], since)];
  }

  lemma DeploymentRecordsCons(d: Deployment, ds: seq<Deployment>)
    ensures DeploymentRecords([d] + ds) == [DeploymentInfoOf(d)] + DeploymentRecords(ds)
  {
  }

  /** Every deployment the scan reports was created at or after the
      threshold and, with an environment given, went to that environment. */
  lemma ScanDeploymentsSound(ds: seq<Deployment>, since: int, environment: Option<string>)
    ensures forall j :: 0 <= j < |ScanDeployments(ds, since, environment)| ==>
      && ScanDeployments(ds, since, environment)[j].createdAt >= since
      && (Given(environment) ==> ScanDeployments(ds, since, environment)[j].environment == environment)
  {
  }

  /** `get_recent_github_deployments(hours, repo, environment)`. */
  function RecentDeployments(
    client: Option<Client>, repo: Option<string>,
    deploymentsOf: string -> seq<Deployment>,
    now: int, hours: int, environment: Option<string>): (r: seq<DeploymentInfo>)
    ensures TargetRepo(client, repo).None? ==> r == []
    ensures forall j :: 0 <= j < |r| ==> r[j].createdAt >= SinceTime(now, hours)
    ensures Given(environment) ==> forall j :: 0 <= j < |r| ==> r[j].environment == environment
    ensures TargetRepo(client, repo).Some? ==>
      var ds := deploymentsOf(TargetRepo(client, repo).value);
      var since := SinceTime(now, hours);
      r == DeploymentRecords(SelectedDeployments(ds[..DeployScanEnd(ds, since)], environment))
  {
    match TargetRepo(client, repo)
    case None => []
    case Some(name) =>
      ScanDeploymentsSound(deploymentsOf(name), SinceTime(now, hours), environment);
      ScanDeployments(deploymentsOf(name), SinceTime(now, hours), environment)
  }

  // ---------------------------------------------------------------------
  // Service / region filter
  // ---------------------------------------------------------------------

  /** `deployment.get(field) or ''`. */
  function OrEmpty(s: Option<string>): string {
    s.GetOr("")
  }

  /** The lower-cased service occurs in the environment, the description
      or the ref. */
  predicate ServiceMatch(d: DeploymentInfo, service: string) {
    var s := Text.Lower(service);
    || Text.Contains(s, Text.Lower(OrEmpty(d.environment)))
    || Text.Contains(s, Text.Lower(OrEmpty(d.description)))
    || Text.Contains(s, Text.Lower(OrEmpty(d.ref)))
  }

  /** The lower-cased region occurs in the environment or the description;
      the ref is not consulted. */
  predicate RegionMatch(d: DeploymentInfo, region: string) {
    var r := Text.Lower(region);
    || Text.Contains(r, Text.Lower(OrEmpty(d.environment)))
    || Text.Contains(r, Text.Lower(OrEmpty(d.description)))
  }

  predicate MatchesServiceRegion(d: DeploymentInfo, service: string, region: Option<string>) {
    ServiceMatch(d, service) && (!Given(region) || RegionMatch(d, region.value))
  }

  /** The loop of `get_github_deployment_by_service_region`. */
  function FilterByServiceRegion(ds: seq<DeploymentInfo>, service: string, region: Option<string>): (r: seq<DeploymentInfo>)
    ensures Seqs.IsSubseq(r, ds)
    ensures forall j :: 0 <= j < |r| ==> MatchesServiceRegion(r[j], service, region)
    ensures forall i :: 0 <= i < |ds| && MatchesServiceRegion(ds[i], service, region) ==> ds[i] in r
  {
    Seqs.Filter(ServiceRegionMatch(service, region), ds)
  }

  function ServiceRegionMatch(service: string, region: Option<string>): DeploymentInfo -> bool {
    (d: DeploymentInfo) => MatchesServiceRegion(d, service, region)
  }

  /** Giving a region only removes deployments from what the service alone
      selects, and keeps the order. */
  lemma {:induction false} RegionOnlyNarrows(ds: seq<DeploymentInfo>, service: string, region: Option<string>)
    ensures Seqs.IsSubseq(FilterByServiceRegion(ds, service, region), FilterByServiceRegion(ds, service, None))
    decreases |ds|
  {
    if |ds| > 0 {
      RegionOnlyNarrows(ds[1..], service, region);
    }
  }

  /** The region lower-cased, when there is one. */
  function LowerRegion(region: Option<string>): Option<string> {
    if region.Some? then Some(Text.Lower(region.value)) else None
  }

  /** The filter ignores the case of the service and of the region, with
      or without a region. */
  lemma {:induction false} ServiceRegionCaseInsensitive(ds: seq<DeploymentInfo>, service: string, region: Option<string>)
    ensures FilterByServiceRegion(ds, service, region)
         == FilterByServiceRegion(ds, Text.Lower(service), LowerRegion(region))
    decreases |ds|
  {
    if |ds| > 0 {
      MatchCaseInsensitive(ds[0], service, region);
      ServiceRegionCaseInsensitive(ds[1..], service, region);
    }
  }

  lemma MatchCaseInsensitive(d: DeploymentInfo, service: string, region: Option<string>)
    ensures MatchesServiceRegion(d, service, region)
       <==> MatchesServiceRegion(d, Text.Lower(service), LowerRegion(region))
  {
    Text.LowerIdempotent(service);
    if region.Some? {
      Text.LowerIdempotent(region.value);
    }
  }

  /** `get_github_deployment_by_service_region(service, region, hours)`:
      the filter applied to the default repository's recent deployments. */
  function DeploymentsByServiceRegion(
    service: string, region: Option<string>,
    client: Option<Client>, deploymentsOf: string -> seq<Deployment>,
    now: int, hours: int): (r: seq<DeploymentInfo>)
    ensures r == Seqs.Filter(ServiceRegionMatch(service, region), RecentDeployments(client, None, deploymentsOf, now, hours, None))
    ensures forall j :: 0 <= j < |r| ==> r[j].createdAt >= SinceTime(now, hours)
  {
    var recent := RecentDeployments(client, None, deploymentsOf, now, hours, None);
    FilterKeepsCreatedSince(recent, service, region, SinceTime(now, hours));
    FilterByServiceRegion(recent, service, region)
  }

  /** The filter only removes deployments, so a lower bound on creation
      times carries over. */
  lemma FilterKeepsCreatedSince(ds: seq<DeploymentInfo>, service: string, region: Option<string>, since: int)
    requires forall i :: 0 <= i < |ds| ==> ds[i].createdAt >= since
    ensures forall j :: 0 <= j < |FilterByServiceRegion(ds, service, region)| ==>
      FilterByServiceRegion(ds, service, region)[j].createdAt >= since
  {
    var r := FilterByServiceRegion(ds, service, region);
    Seqs.SubseqMembers(r, ds);
    forall j | 0 <= j < |r|
      ensures r[j].createdAt >= since
    {
      assert r[j] in ds;
    }
  }

  // ---------------------------------------------------------------------
  // Incident correlation
  // ---------------------------------------------------------------------

  const CorrelationWindowHours: int := 6
  const CorrelationWindowSeconds: int := CorrelationWindowHours * SecondsPerHour

  /** The item happened at most six hours before the incident (both ends
      included), and not after it. */
  predicate InWindow(incident: int, t: int) {
    0 <= incident - t <= CorrelationWindowSeconds
  }

  datatype Correlation =
    | DeploymentCorrelation(before: int, deployment: DeploymentInfo)
    | PrCorrelation(before: int, pr: PrInfo)
  {
    function Time(): int {
      match this
      case DeploymentCorrelation(_, d) => d.createdAt
      case PrCorrelation(_, p) => p.mergedAt
    }
  }

  function DeploymentCorrelations(incident: int, ds: seq<DeploymentInfo>): (r: seq<Correlation>)
    ensures forall j :: 0 <= j < |r| ==>
      && r[j].DeploymentCorrelation?
      && r[j].deployment in ds
      && InWindow(incident, r[j].Time())
      && r[j].before == incident - r[j].Time()
    ensures forall i :: 0 <= i < |ds| && InWindow(incident, ds[i].createdAt) ==>
      DeploymentCorrelation(incident - ds[i].createdAt, ds[i]) in r
    decreases |ds|
  {
    if |ds| == 0 then []
    else
      var rest := DeploymentCorrelations(incident, ds[1..]);
      var r := if InWindow(incident, ds[0].createdAt) then [DeploymentCorrelation(incident - ds[0].createdAt, ds[0])] + rest
               else rest;
      DeploymentCorrelationsStepSound(incident, ds, rest, r);
      DeploymentCorrelationsStepComplete(incident, ds, rest, r);
      r
  }

  /** One step of `DeploymentCorrelations`, soundness half: every
      correlation in front of what the rest gives is of a deployment of the
      list, in the window. */
  lemma DeploymentCorrelationsStepSound(incident: int, ds: seq<DeploymentInfo>, rest: seq<Correlation>, r: seq<Correlation>)
    requires |ds| > 0
    requires forall j :: 0 <= j < |rest| ==>
      && rest[j].DeploymentCorrelation?
      && rest[j].deployment in ds[1..]
      && InWindow(incident, rest[j].Time())
      && rest[j].before == incident - rest[j].Time()
    requires r == if InWindow(incident, ds[0].createdAt) then [DeploymentCorrelation(incident - ds[0].createdAt, ds[0])] + rest
                  else rest
    ensures forall j :: 0 <= j < |r| ==>
      && r[j].DeploymentCorrelation?
      && r[j].deployment in ds
      && InWindow(incident, r[j].Time())
      && r[j].before == incident - r[j].Time()
  {
    forall j | 0 <= j < |r|
      ensures r[j].deployment in ds
    {
      if InWindow(incident, ds[0].createdAt) && j == 0 {
        assert r[0].deployment == ds[0];
      } else {
        var k := if InWindow(incident, ds[0].createdAt) then j - 1 else j;
        assert r[j] == rest[k];
        assert rest[k].deployment in ds[1..];
      }
    }
  }

  /** One step of `DeploymentCorrelations`, completeness half: every
      deployment of the list in the window is correlated. */
  lemma DeploymentCorrelationsStepComplete(incident: int, ds: seq<DeploymentInfo>, rest: seq<Correlation>, r: seq<Correlation>)
    requires |ds| > 0
    requires forall i :: 0 <= i < |ds[1..]| && InWindow(incident, ds[1..][i].createdAt) ==>
      DeploymentCorrelation(incident - ds[1..][i].createdAt, ds[1..][i]) in rest
    requires r == if InWindow(incident, ds[0].createdAt) then [DeploymentCorrelation(incident - ds[0].createdAt, ds[0])] + rest
                  else rest
    ensures forall i :: 0 <= i < |ds| && InWindow(incident, ds[i].createdAt) ==>
      DeploymentCorrelation(incident - ds[i].createdAt, ds[i]) in r
  {
    forall i | 0 <= i < |ds| && InWindow(incident, ds[i].createdAt)
      ensures DeploymentCorrelation(incident - ds[i].createdAt, ds[i]) in r
    {
      if i > 0 {
        assert ds[i] == ds[1..][i - 1];
      }
    }
  }

  function PrCorrelations(incident: int, prs: seq<PrInfo>): (r: seq<Correlation>)
    ensures forall j :: 0 <= j < |r| ==>
      && r[j].PrCorrelation?
      && r[j].pr in prs
      && InWindow(incident, r[j].Time())
      && r[j].before == incident - r[j].Time()
    ensures forall i :: 0 <= i < |prs| && InWindow(incident, prs[i].mergedAt) ==>
      PrCorrelation(incident - prs[i].mergedAt, prs[i]) in r
    decreases |prs|
  {
    if |prs| == 0 then []
    else
      var rest := PrCorrelations(incident, prs[1..]);
      if InWindow(incident, prs[0].mergedAt) then [PrCorrelation(incident - prs[0].mergedAt, prs[0])] + rest
      else rest
  }

  /** A deployment created inside the window of the incident. */
  function DeployedWithin(incident: int): DeploymentInfo -> bool {
    (d: DeploymentInfo) => InWindow(incident, d.createdAt)
  }

  /** A pull request merged inside the window of the incident. */
  function MergedWithin(incident: int): PrInfo -> bool {
    (p: PrInfo) => InWindow(incident, p.mergedAt)
  }

  /** The correlation recorded for a deployment, with its lead time. */
  function DeploymentCorrelationOf(incident: int): DeploymentInfo -> Correlation {
    (d: DeploymentInfo) => DeploymentCorrelation(incident - d.createdAt, d)
  }

  /** The correlation recorded for a pull request, with its lead time. */
  function PrCorrelationOf(incident: int): PrInfo -> Correlation {
    (p: PrInfo) => PrCorrelation(incident - p.mergedAt, p)
  }

  /** One correlation per deployment in the window, in the deployments'
      order, each as often as the deployment is listed. */
  lemma {:induction false} DeploymentCorrelationsInOrder(incident: int, ds: seq<DeploymentInfo>)
    ensures DeploymentCorrelations(incident, ds) == Seqs.Map(DeploymentCorrelationOf(incident), Seqs.Filter(DeployedWithin(incident), ds))
    decreases |ds|
  {
    if |ds| > 0 {
      DeploymentCorrelationsInOrder(incident, ds[1..]);
      var rest := Seqs.Filter(DeployedWithin(incident), ds[1..]);
      if DeployedWithin(incident)(ds[0]) {
        Seqs.MapCons(DeploymentCorrelationOf(incident), ds[0], rest);
      }
    }
  }

  /** One correlation per pull request in the window, in the pull
      requests' order, each as often as it is listed. */
  lemma {:induction false} PrCorrelationsInOrder(incident: int, prs: seq<PrInfo>)
    ensures PrCorrelations(incident, prs) == Seqs.Map(PrCorrelationOf(incident), Seqs.Filter(MergedWithin(incident), prs))
    decreases |prs|
  {
    if |prs| > 0 {
      PrCorrelationsInOrder(incident, prs[1..]);
      var rest := Seqs.Filter(MergedWithin(incident), prs[1..]);
      if MergedWithin(incident)(prs[0]) {
        Seqs.MapCons(PrCorrelationOf(incident), prs[0], rest);
      }
    }
  }

  /** The correlations of the analysis: the deployments in the window, in
      order, then the pull requests in the window, in order. */
  function Correlations(incident: int, ds: seq<DeploymentInfo>, prs: seq<PrInfo>): (r: seq<Correlation>)
    ensures forall i, j :: 0 <= i < j < |r| && r[i].PrCorrelation? ==> r[j].PrCorrelation?
    ensures forall j :: 0 <= j < |r| ==> InWindow(incident, r[j].Time())
    ensures r == Seqs.Map(DeploymentCorrelationOf(incident), Seqs.Filter(DeployedWithin(incident), ds))
               + Seqs.Map(PrCorrelationOf(incident), Seqs.Filter(MergedWithin(incident), prs))
  {
    DeploymentCorrelationsInOrder(incident, ds);
    PrCorrelationsInOrder(incident, prs);
    DeploymentCorrelations(incident, ds) + PrCorrelations(incident, prs)
  }

  lemma NoDeploymentCorrelationsIff(incident: int, ds: seq<DeploymentInfo>)
    ensures |DeploymentCorrelations(incident, ds)| == 0 <==>
      forall i :: 0 <= i < |ds| ==> !InWindow(incident, ds[i].createdAt)
  {
  }

  lemma NoPrCorrelationsIff(incident: int, prs: seq<PrInfo>)
    ensures |PrCorrelations(incident, prs)| == 0 <==>
      forall i :: 0 <= i < |prs| ==> !InWindow(incident, prs[i].mergedAt)
  {
  }

  /** There is no correlation exactly when no deployment and no pull request
      falls inside the window. */
  lemma NoCorrelationsIffNothingInWindow(incident: int, ds: seq<DeploymentInfo>, prs: seq<PrInfo>)
    ensures |Correlations(incident, ds, prs)| == 0 <==>
      && (forall i :: 0 <= i < |ds| ==> !InWindow(incident, ds[i].createdAt))
      && (forall i :: 0 <= i < |prs| ==> !InWindow(incident, prs[i].mergedAt))
  {
    NoDeploymentCorrelationsIff(incident, ds);
    NoPrCorrelationsIff(incident, prs);
  }

  const NoCorrelationsText: string :=
    "No correlations found"
    + " - No deployments or PRs in the 6 hours before the incident."

  function VerdictLine(cs: seq<Correlation>): (r: string)
    ensures r == NoCorrelationsText <==> |cs| == 0
  {
    if |cs| > 0 then
      var line := "Found " + Numerals.NatToString(|cs|) + " potential correlations:";
      assert line[0] == 'F';
      assert NoCorrelationsText[0] == 'N';
      line
    else NoCorrelationsText
  }

  /** The report of `analyze_github_deployment_correlation`, without its
      text layout: the header fields shown, the correlations listed, and
      the verdict line. `AnalysisError` is the report when parsing the
      incident time, or comparing it with a deployment or pull request,
      raises. */
  datatype Analysis =
    | Analysis(
        incidentTime: string,
        service: Option<string>,
        region: Option<string>,
        correlations: seq<Correlation>,
        verdict: string)
    | AnalysisError

  /** The deployments the analysis correlates: the recent ones, filtered by
      service and region only when a service is given. */
  function AnalysisDeployments(
    service: Option<string>, region: Option<string>,
    client: Option<Client>, deploymentsOf: string -> seq<Deployment>, now: int): (r: seq<DeploymentInfo>)
    ensures var recent := RecentDeployments(client, None, deploymentsOf, now, CorrelationWindowHours, None);
      r == if Given(service) then Seqs.Filter(ServiceRegionMatch(service.value, region), recent) else recent
    ensures forall j :: 0 <= j < |r| ==> r[j].createdAt >= SinceTime(now, CorrelationWindowHours)
  {
    if Given(service) then
      DeploymentsByServiceRegion(service.value, region, client, deploymentsOf, now, CorrelationWindowHours)
    else
      var recent := RecentDeployments(client, None, deploymentsOf, now, CorrelationWindowHours, None);
      recent
  }

  /** The report for given deployment and pull-request lists. */
  function Report(
    incidentTime: string, incident: ParsedTime,
    service: Option<string>, region: Option<string>,
    ds: seq<DeploymentInfo>, prs: seq<PrInfo>): (a: Analysis)
    ensures a.AnalysisError? <==> incident.Unparseable? || (incident.Naive? && (|ds| > 0 || |prs| > 0))
    ensures incident.Aware? ==> a.correlations == Correlations(incident.t, ds, prs)
    ensures incident.Naive? && a.Analysis? ==> a.correlations == []
    ensures a.Analysis? ==> (a.verdict == NoCorrelationsText <==> |a.correlations| == 0)
    ensures a.Analysis? ==> (a.service.Some? <==> Given(service)) && (a.region.Some? <==> Given(region))
    ensures a.Analysis? ==>
      && a.incidentTime == incidentTime
      && (a.service.Some? ==> a.service == service)
      && (a.region.Some? ==> a.region == region)
    ensures a.Analysis? ==>
      forall j :: 0 <= j < |a.correlations| && a.correlations[j].DeploymentCorrelation? ==> a.correlations[j].deployment in ds
  {
    var shownService := if Given(service) then service else None;
    var shownRegion := if Given(region) then region else None;
    match incident
    case Unparseable => AnalysisError
    case Naive =>
      if |ds| > 0 || |prs| > 0 then AnalysisError
      else Analysis(incidentTime, shownService, shownRegion, [], VerdictLine([]))
    case Aware(t) =>
      var cs := Correlations(t, ds, prs);
      Analysis(incidentTime, shownService, shownRegion, cs, VerdictLine(cs))
  }

  /** `analyze_github_deployment_correlation(incident_time, service,
      region)`; `incident` is what parsing the incident time gives. A
      naive incident time raises only once it is compared, so with nothing
      to compare the report is produced. */
  function AnalyzeCorrelation(
    incidentTime: string, incident: ParsedTime,
    service: Option<string>, region: Option<string>,
    client: Option<Client>,
    pullsOf: string -> seq<PullRequest>, deploymentsOf: string -> seq<Deployment>,
    now: int): (a: Analysis)
    ensures a.AnalysisError? <==>
      || incident.Unparseable?
      || (&& incident.Naive?
          && (|| |AnalysisDeployments(service, region, client, deploymentsOf, now)| > 0
              || |RecentMergedPrs(client, None, pullsOf, now, CorrelationWindowHours)| > 0))
    ensures incident.Aware? ==>
      a.correlations == Correlations(
        incident.t,
        AnalysisDeployments(service, region, client, deploymentsOf, now),
        RecentMergedPrs(client, None, pullsOf, now, CorrelationWindowHours))
    ensures incident.Naive? && a.Analysis? ==> a.correlations == []
    ensures a.Analysis? ==> (a.verdict == NoCorrelationsText <==> |a.correlations| == 0)
    ensures incident.Aware? ==> forall j :: 0 <= j < |a.correlations| ==> InWindow(incident.t, a.correlations[j].Time())
    ensures a.Analysis? && Given(service) ==>
      forall j :: 0 <= j < |a.correlations| && a.correlations[j].DeploymentCorrelation? ==>
        MatchesServiceRegion(a.correlations[j].deployment, service.value, region)
    ensures a.Analysis? ==> (a.service.Some? <==> Given(service)) && (a.region.Some? <==> Given(region))
    ensures a.Analysis? ==>
      && a.incidentTime == incidentTime
      && (a.service.Some? ==> a.service == service)
      && (a.region.Some? ==> a.region == region)
  {
    var prs := RecentMergedPrs(client, None, pullsOf, now, CorrelationWindowHours);
    var ds := AnalysisDeployments(service, region, client, deploymentsOf, now);
    Report(incidentTime, incident, service, region, ds, prs)
  }

  /** Without a service, the region changes only the header: the same
      correlations are found. */
  lemma RegionAloneFiltersNothing(
    incidentTime: string, incident: ParsedTime, service: Option<string>,
    region1: Option<string>, region2: Option<string>,
    client: Option<Client>,
    pullsOf: string -> seq<PullRequest>, deploymentsOf: string -> seq<Deployment>, now: int)
    requires !Given(service)
    ensures
      var a1 := AnalyzeCorrelation(incidentTime, incident, service, region1, client, pullsOf, deploymentsOf, now);
      var a2 := AnalyzeCorrelation(incidentTime, incident, service, region2, client, pullsOf, deploymentsOf, now);
      && a1.Analysis? == a2.Analysis?
      && (a1.Analysis? ==> a1.correlations == a2.correlations && a1.verdict == a2.verdict)
  {
  }
}

=== FILE: github_tools_lightweight.dfy ===
/**
  The lightweight GitHub wrapper, which reads the REST API's JSON directly:
  time filters with defaults for missing fields, and a correlation report
  that lists at most three items of each kind and whose verdict depends
  only on whether anything was found.

  `get(url)` is the HTTP GET: `None` when the request raises, otherwise
  the status code and the decoded list of objects. Any exception while the
  list is processed (a missing key, a timestamp that does not parse) makes
  the fetcher return an empty list.
 */
module GithubLight {
  import opened Values
  import Seqs

  /** The stored client; `None` until `init_github_client` runs. */
  datatype Client = Client(org: Option<string>, repo: Option<string>)

  datatype Response = Response(status: int, items: seq<Object>)

  const ApiRepos: string := "https://api.github.com/repos/"
  const StatusOk: int := 200

  /** `f"{x}"` for an optional string: `None` is rendered as "None". */
  function Shown(s: Option<string>): string {
    s.GetOr("None")
  }

  function PullsUrl(c: Client): string {
    ApiRepos + Shown(c.org) + "/" + Shown(c.repo) + "/pulls"
  }

  function DeploymentsUrl(c: Client): string {
    ApiRepos + Shown(c.org) + "/" + Shown(c.repo) + "/deployments"
  }

  /** The request went through with status 200. */
  predicate Answered(resp: Option<Response>) {
    resp.Some? && resp.value.status == StatusOk
  }

  /** What processing one item of the list does: append a record, skip
      the item, or raise. */
  datatype ItemOutcome = Keep(record: Object) | Skip | Fail

  predicate IsKept(o: ItemOutcome) { o.Keep? }

  function AsKept(record: Object): ItemOutcome { Keep(record) }

  /** The records of a processed list, or `None` when some item raised
      (the fetcher then returns an empty list). The records are those of
      the kept items, in the items' order, one per kept item. */
  function Gather(os: seq<ItemOutcome>): (r: Option<seq<Object>>)
    ensures r.None? <==> exists i :: 0 <= i < |os| && os[i].Fail?
    ensures r.Some? ==> Seqs.Map(AsKept, r.value) == Seqs.Filter(IsKept, os)
    decreases |os|
  {
    if |os| == 0 then Some([])
    else
      var rest := Gather(os[1..]);
      assert forall i :: 0 < i < |os| ==> os[i] == os[1..][i - 1];
      match os[0]
      case Fail => None
      case Skip => rest
      case Keep(x) =>
        if rest.None? then None
        else
          Seqs.MapCons(AsKept, x, rest.value);
          Some([x] + rest.value)
  }

  // ---------------------------------------------------------------------
  // Merged pull requests
  // ---------------------------------------------------------------------

  /** The record kept for a pull request: title, `merged_at` and the URL
      are copied, and the counts are copied when present and 0 otherwise. */
  function PrRecord(pr: Object): (r: Object)
    requires "title" in pr && "merged_at" in pr && "html_url" in pr
    ensures r.Keys == {"title", "merged_at", "url", "files_changed", "additions", "deletions"}
    ensures r["title"] == pr["title"] && r["merged_at"] == pr["merged_at"] && r["url"] == pr["html_url"]
    ensures r["files_changed"] == (if "changed_files" in pr then pr["changed_files"] else JInt(0))
    ensures r["additions"] == (if "additions" in pr then pr["additions"] else JInt(0))
    ensures r["deletions"] == (if "deletions" in pr then pr["deletions"] else JInt(0))
  {
    map[
      "title" := pr["title"],
      "merged_at" := pr["merged_at"],
      "url" := pr["html_url"],
      "files_changed" := Get(pr, "changed_files", JInt(0)),
      "additions" := Get(pr, "additions", JInt(0)),
      "deletions" := Get(pr, "deletions", JInt(0))
    ]
  }

  /** The pull requests the lightweight scan keeps: merged at or after the
      threshold, with a title and a URL. */
  predicate MergedAfter(pr: Object, threshold: int) {
    && "merged_at" in pr && pr["merged_at"].JTime? && pr["merged_at"].t >= threshold
    && "title" in pr && "html_url" in pr
  }

  function MergedSince(threshold: int): Object -> bool {
    (pr: Object) => MergedAfter(pr, threshold)
  }

  /** One pull request: skipped unless `merged_at` is truthy; a truthy
      value that is not a timestamp raises; a merge at or after the
      threshold is kept. */
  function PrOutcome(pr: Object, threshold: int): (o: ItemOutcome)
    ensures o.Keep? <==> MergedSince(threshold)(pr)
    ensures o.Keep? ==> o.record == PrRecord(pr)
    ensures o.Skip? <==> !Truthy(Get(pr, "merged_at", JNull)) || (pr["merged_at"].JTime? && pr["merged_at"].t < threshold)
    ensures o.Fail? <==>
      && Truthy(Get(pr, "merged_at", JNull))
      && (|| !pr["merged_at"].JTime?
          || (pr["merged_at"].t >= threshold && ("title" !in pr || "html_url" !in pr)))
  {
    var merged := Get(pr, "merged_at", JNull);
    if !Truthy(merged) then Skip
    else if !merged.JTime? then Fail
    else if merged.t < threshold then Skip
    else if "title" !in pr || "html_url" !in pr then Fail
    else Keep(PrRecord(pr))
  }

  function PrOutcomeAt(threshold: int): Object -> ItemOutcome {
    (pr: Object) => PrOutcome(pr, threshold)
  }

  function PrOutcomes(items: seq<Object>, threshold: int): (os: seq<ItemOutcome>)
    ensures |os| == |items| && forall i :: 0 <= i < |items| ==> os[i] == PrOutcome(items[i], threshold)
  {
    Seqs.Map(PrOutcomeAt(threshold), items)
  }

  /** The records of a list of kept pull requests. */
  function PrRecords(prs: seq<Object>): (r: seq<Object>)
    requires forall i :: 0 <= i < |prs| ==> "title" in prs[i] && "merged_at" in prs[i] && "html_url" in prs[i]
    ensures |r| == |prs| && forall i :: 0 <= i < |prs| ==> r[i] == PrRecord(prs[i])
  {
    seq(|prs|, i requires 0 <= i < |prs| => PrRecord(prs[i]))
  }

  /** When no item raises (the gathered result is present), processing a
      list keeps the record of every pull request merged since the
      threshold, wherever it is listed, in the list's order. */
  lemma GatherPrs(items: seq<Object>, threshold: int)
    ensures Gather(PrOutcomes(items, threshold)).Some? ==>
      Gather(PrOutcomes(items, threshold)).value == PrRecords(Seqs.Filter(MergedSince(threshold), items))
  {
    if Gather(PrOutcomes(items, threshold)).Some? {
      var f := PrOutcomeAt(threshold);
      var kept := Seqs.Filter(MergedSince(threshold), items);
      assert forall i :: 0 <= i < |items| ==> (IsKept(f(items[i])) <==> MergedSince(threshold)(items[i]));
      Seqs.FilterMap(MergedSince(threshold), IsKept, f, items);
      var os := PrOutcomes(items, threshold);
      assert os == Seqs.Map(f, items);
      var g := Gather(os).value;
      assert Seqs.Map(AsKept, g) == Seqs.Map(f, kept);
      assert |g| == |kept|;
      forall j | 0 <= j < |kept|
        ensures g[j] == PrRecord(kept[j])
      {
        assert AsKept(g[j]) == f(kept[j]);
        assert MergedSince(threshold)(kept[j]);
        assert f(kept[j]) == PrOutcome(kept[j], threshold);
      }
      var records := PrRecords(kept);
      assert forall j :: 0 <= j < |kept| ==> records[j] == g[j];
      assert records == g;
    }
  }

  /** `get_recent_github_merged_prs(hours)` of the lightweight wrapper. */
  function RecentMergedPrs(client: Option<Client>, get: string -> Option<Response>, now: int, hours: int): (r: seq<Object>)
    ensures client.None? ==> r == []
    ensures client.Some? && !Answered(get(PullsUrl(client.value))) ==> r == []
    ensures forall j :: 0 <= j < |r| ==>
      "merged_at" in r[j] && r[j]["merged_at"].JTime? && r[j]["merged_at"].t >= SinceTime(now, hours)
    ensures client.Some? && Answered(get(PullsUrl(client.value))) ==>
      var items := get(PullsUrl(client.value)).value.items;
      && ((exists i :: 0 <= i < |items| && PrOutcome(items[i], SinceTime(now, hours)).Fail?) ==> r == [])
      && ((forall i :: 0 <= i < |items| ==> !PrOutcome(items[i], SinceTime(now, hours)).Fail?) ==>
            r == PrRecords(Seqs.Filter(MergedSince(SinceTime(now, hours)), items)))
  {
    if client.None? then []
    else match get(PullsUrl(client.value))
      case None => []
      case Some(resp) =>
        if resp.status != StatusOk then []
        else
          var threshold := SinceTime(now, hours);
          match Gather(PrOutcomes(resp.items, threshold))
          case None => []
          case Some(kept) =>
            GatherPrs(resp.items, threshold);
            kept
  }

  // ---------------------------------------------------------------------
  // Deployments
  // ---------------------------------------------------------------------

  /** The record kept for a deployment: `created_at` is copied; environment
      and ref are copied when present and "unknown" otherwise, the
      description when present and "" otherwise. */
  function DeploymentRecord(d: Object): (r: Object)
    requires "created_at" in d
    ensures r.Keys == {"environment", "created_at", "ref", "description"}
    ensures r["created_at"] == d["created_at"]
    ensures r["environment"] == (if "environment" in d then d["environment"] else JStr("unknown"))
    ensures r["ref"] == (if "ref" in d then d["ref"] else JStr("unknown"))
    ensures r["description"] == (if "description" in d then d["description"] else JStr(""))
  {
    map[
      "environment" := Get(d, "environment", JStr("unknown")),
      "created_at" := d["created_at"],
      "ref" := Get(d, "ref", JStr("unknown")),
      "description" := Get(d, "description", JStr(""))
    ]
  }

  /** The deployments created at or after the threshold. */
  function CreatedSince(threshold: int): Object -> bool {
    (d: Object) => "created_at" in d && d["created_at"].JTime? && d["created_at"].t >= threshold
  }

  /** One deployment: its `created_at` must be a timestamp (otherwise the
      processing raises); it is kept when at or after the threshold, and an
      older one does not end the processing. */
  function DeploymentOutcome(d: Object, threshold: int): (o: ItemOutcome)
    ensures o.Fail? <==> "created_at" !in d || !d["created_at"].JTime?
    ensures o.Keep? <==> CreatedSince(threshold)(d)
    ensures o.Keep? ==> o.record == DeploymentRecord(d)
  {
    if "created_at" !in d || !d["created_at"].JTime? then Fail
    else if d["created_at"].t < threshold then Skip
    else Keep(DeploymentRecord(d))
  }

  function DeploymentOutcomeAt(threshold: int): Object -> ItemOutcome {
    (d: Object) => DeploymentOutcome(d, threshold)
  }

  function DeploymentOutcomes(items: seq<Object>, threshold: int): (os: seq<ItemOutcome>)
    ensures |os| == |items| && forall i :: 0 <= i < |items| ==> os[i] == DeploymentOutcome(items[i], threshold)
  {
    Seqs.Map(DeploymentOutcomeAt(threshold), items)
  }

  /** The records of a list of kept deployments. */
  function DeploymentRecords(ds: seq<Object>): (r: seq<Object>)
    requires forall i :: 0 <= i < |ds| ==> "created_at" in ds[i]
    ensures |r| == |ds| && forall i :: 0 <= i < |ds| ==> r[i] == DeploymentRecord(ds[i])
  {
    seq(|ds|, i requires 0 <= i < |ds| => DeploymentRecord(ds[i]))
  }

  /** When no item raises (no `created_at` is missing or unparseable, so
      the gathered result is present), processing a list keeps the record of
      every deployment created since the threshold, in the list's order;
      unlike the full scan, an older deployment does not hide the ones
      listed after it. */
  lemma GatherDeployments(items: seq<Object>, threshold: int)
    ensures Gather(DeploymentOutcomes(items, threshold)).Some? ==>
      Gather(DeploymentOutcomes(items, threshold)).value == DeploymentRecords(Seqs.Filter(CreatedSince(threshold), items))
  {
    if Gather(DeploymentOutcomes(items, threshold)).Some? {
      var f := DeploymentOutcomeAt(threshold);
      var kept := Seqs.Filter(CreatedSince(threshold), items);
      assert forall i :: 0 <= i < |items| ==> (IsKept(f(items[i])) <==> CreatedSince(threshold)(items[i]));
      Seqs.FilterMap(CreatedSince(threshold), IsKept, f, items);
      var os := DeploymentOutcomes(items, threshold);
      assert os == Seqs.Map(f, items);
      var g := Gather(os).value;
      assert Seqs.Map(AsKept, g) == Seqs.Map(f, kept);
      assert |g| == |kept|;
      forall j | 0 <= j < |kept|
        ensures g[j] == DeploymentRecord(kept[j])
      {
        assert AsKept(g[j]) == f(kept[j]);
        assert CreatedSince(threshold)(kept[j]);
        assert f(kept[j]) == DeploymentOutcome(kept[j], threshold);
      }
      var records := DeploymentRecords(kept);
      assert forall j :: 0 <= j < |kept| ==> records[j] == g[j];
      assert records == g;
    }
  }

  /** `get_recent_github_deployments(hours)` of the lightweight wrapper. */
  function RecentDeployments(client: Option<Client>, get: string -> Option<Response>, now: int, hours: int): (r: seq<Object>)
    ensures client.None? ==> r == []
    ensures client.Some? && !Answered(get(DeploymentsUrl(client.value))) ==> r == []
    ensures forall j :: 0 <= j < |r| ==>
      "created_at" in r[j] && r[j]["created_at"].JTime? && r[j]["created_at"].t >= SinceTime(now, hours)
    ensures client.Some? && Answered(get(DeploymentsUrl(client.value))) ==>
      var items := get(DeploymentsUrl(client.value)).value.items;
      && ((exists i :: 0 <= i < |items| && DeploymentOutcome(items[i], SinceTime(now, hours)).Fail?) ==> r == [])
      && ((forall i :: 0 <= i < |items| ==> !DeploymentOutcome(items[i], SinceTime(now, hours)).Fail?) ==>
            r == DeploymentRecords(Seqs.Filter(CreatedSince(SinceTime(now, hours)), items)))
  {
    if client.None? then []
    else match get(DeploymentsUrl(client.value))
      case None => []
      case Some(resp) =>
        if resp.status != StatusOk then []
        else
          var threshold := SinceTime(now, hours);
          match Gather(DeploymentOutcomes(resp.items, threshold))
          case None => []
          case Some(kept) =>
            GatherDeployments(resp.items, threshold);
            kept
  }

  // ---------------------------------------------------------------------
  // Correlation report
  // ---------------------------------------------------------------------

  const LookBackHours: int := 6
  const ShownItems: nat := 3

  datatype Verdict = PotentialCorrelation(prs: nat, deployments: nat, hours: int) | NoCorrelation(hours: int)

  /** The report of the lightweight `analyze_github_deployment_correlation`,
      without its text layout; `ReportError` when the incident time does
      not parse. */
  datatype Report =
    | Report(
        incidentTime: string,
        service: Option<string>,
        region: Option<string>,
        prCount: nat,
        deploymentCount: nat,
        shownPrs: seq<Object>,
        shownDeployments: seq<Object>,
        verdict: Verdict)
    | ReportError

  /** `incident` is what parsing the incident time gives; the analysis
      checks that it parses and otherwise ignores it, so a naive time is
      as good as an aware one. */
  function AnalyzeCorrelation(
    incidentTime: string, incident: ParsedTime,
    service: Option<string>, region: Option<string>,
    client: Option<Client>, get: string -> Option<Response>, now: int): (r: Report)
    ensures incident.Unparseable? <==> r.ReportError?
    ensures r.Report? ==>
      && r.prCount == |RecentMergedPrs(client, get, now, LookBackHours)|
      && r.deploymentCount == |RecentDeployments(client, get, now, LookBackHours)|
      && r.shownPrs <= RecentMergedPrs(client, get, now, LookBackHours)
      && r.shownDeployments <= RecentDeployments(client, get, now, LookBackHours)
      && |r.shownPrs| == (if r.prCount < ShownItems then r.prCount else ShownItems)
      && |r.shownDeployments| == (if r.deploymentCount < ShownItems then r.deploymentCount else ShownItems)
    ensures r.Report? ==> (r.verdict.PotentialCorrelation? <==> r.prCount > 0 || r.deploymentCount > 0)
    ensures r.Report? ==>
      r.verdict == if r.prCount > 0 || r.deploymentCount > 0 then PotentialCorrelation(r.prCount, r.deploymentCount, LookBackHours)
                   else NoCorrelation(LookBackHours)
    ensures r.Report? && client.None? ==> r.verdict == NoCorrelation(LookBackHours)
    ensures r.Report? ==> r.incidentTime == incidentTime
    ensures r.Report? ==> (r.service.Some? <==> Given(service)) && (r.service.Some? ==> r.service == service)
    ensures r.Report? ==> (r.region.Some? <==> Given(region)) && (r.region.Some? ==> r.region == region)
  {
    if incident.Unparseable? then ReportError
    else
      var prs := RecentMergedPrs(client, get, now, LookBackHours);
      var deployments := RecentDeployments(client, get, now, LookBackHours);
      Report(
        incidentTime,
        if Given(service) then service else None,
        if Given(region) then region else None,
        |prs|,
        |deployments|,
        Seqs.Take(prs, ShownItems),
        Seqs.Take(deployments, ShownItems),
        if |prs| > 0 || |deployments| > 0 then PotentialCorrelation(|prs|, |deployments|, LookBackHours)
        else NoCorrelation(LookBackHours))
  }

  /** The verdict, and the whole report, are the same whatever the incident
      time parses to, naive or aware. */
  lemma IncidentTimeIgnored(
    incidentTime: string, t1: ParsedTime, t2: ParsedTime,
    service: Option<string>, region: Option<string>,
    client: Option<Client>, get: string -> Option<Response>, now: int)
    requires !t1.Unparseable? && !t2.Unparseable?
    ensures AnalyzeCorrelation(incidentTime, t1, service, region, client, get, now)
         == AnalyzeCorrelation(incidentTime, t2, service, region, client, get, now)
  {
  }
}

=== FILE: numerals.dfy ===
/**
  Decimal rendering and parsing of integers: Python's `f"{n}"` for an `int`
  and `int(s)` for a string of ASCII digits with an optional sign.
 */
module Numerals {
  import opened Values

  predicate IsDigit(c: char) { '0' <= c <= '9' }

  predicate AllDigits(s: string) {
    forall i :: 0 <= i < |s| ==> IsDigit(s[i])
  }

  function DigitValue(c: char): nat
    requires IsDigit(c)
  {
    c as int - '0' as int
  }

  function DigitChar(d: nat): (c: char)
    requires d < 10
    ensures IsDigit(c) && DigitValue(c) == d
  {
    ('0' as int + d) as char
  }

  /** Decimal digits of `n`, most significant first, without leading zeros. */
  function NatToString(n: nat): (r: string)
    ensures |r| > 0 && AllDigits(r)
    decreases n
  {
    if n < 10 then [DigitChar(n)] else NatToString(n / 10) + [DigitChar(n % 10)]
  }

  /** Value of a non-empty run of decimal digits. */
  function DigitsValue(s: string): nat
    requires AllDigits(s)
    decreases |s|
  {
    if |s| == 0 then 0 else DigitsValue(s[..|s| - 1]) * 10 + DigitValue(s[|s| - 1])
  }

  /** Python's `str(i)` / `f"{i}"` for an integer. */
  function IntToString(i: int): (r: string)
    ensures |r| > 0
    ensures i < 0 <==> r[0] == '-'
  {
    if i < 0 then "-" + NatToString(-i) else NatToString(i)
  }

  /** Python's `int(s)` on an optionally signed run of ASCII digits; `None`
      for every other string, where `int` raises `ValueError`. */
  function ParseInt(s: string): (r: Option<int>)
    ensures r.Some? <==>
      || (|s| > 0 && AllDigits(s))
      || (|s| > 1 && (s[0] == '-' || s[0] == '+') && AllDigits(s[1..]))
    ensures r.Some? && s[0] == '-' ==> r.value <= 0
    ensures r.Some? && s[0] != '-' ==> r.value >= 0
    ensures r.Some? ==>
      r.value == if s[0] == '-' then -(DigitsValue(s[1..]) as int) else if s[0] == '+' then DigitsValue(s[1..]) else DigitsValue(s)
  {
    if |s| > 0 && (s[0] == '-' || s[0] == '+') then
      var digits := s[1..];
      if |digits| > 0 && AllDigits(digits) then
        var magnitude: int := DigitsValue(digits);
        Some(if s[0] == '-' then -magnitude else magnitude)
      else None
    else if |s| > 0 && AllDigits(s) then Some(DigitsValue(s))
    else None
  }

  function Pow10(n: nat): (r: nat)
    ensures r >= 1
  {
    if n == 0 then 1 else 10 * Pow10(n - 1)
  }

  lemma {:induction false} Pow10Monotone(m: nat, n: nat)
    requires m <= n
    ensures Pow10(m) <= Pow10(n)
    decreases n
  {
    if m < n {
      Pow10Monotone(m, n - 1);
    }
  }

  lemma {:induction false} Pow10Add(m: nat, n: nat)
    ensures Pow10(m + n) == Pow10(m) * Pow10(n)
    decreases n
  {
    if n > 0 {
      Pow10Add(m, n - 1);
    }
  }

  /** A run of `k` digits is worth less than `10^k`. */
  lemma {:induction false} DigitsValueBound(s: string)
    requires AllDigits(s)
    ensures DigitsValue(s) < Pow10(|s|)
    decreases |s|
  {
    if |s| > 0 {
      DigitsValueBound(s[..|s| - 1]);
    }
  }

  /** The magnitude `int(s)` gives is less than `10^|s|`. */
  lemma ParseIntBound(s: string)
    requires ParseInt(s).Some?
    ensures -(Pow10(|s|) as int) < ParseInt(s).value < Pow10(|s|)
  {
    if s[0] == '-' || s[0] == '+' {
      DigitsValueBound(s[1..]);
      Pow10Monotone(|s| - 1, |s|);
    } else {
      DigitsValueBound(s);
    }
  }

  lemma {:induction false} NatToStringRoundTrip(n: nat)
    ensures DigitsValue(NatToString(n)) == n
    decreases n
  {
    if n >= 10 {
      NatToStringRoundTrip(n / 10);
      var s := NatToString(n / 10) + [DigitChar(n % 10)];
      assert s[..|s| - 1] == NatToString(n / 10);
    }
  }

  /** Parsing the rendering of any integer gives the integer back. */
  lemma IntToStringRoundTrip(i: int)
    ensures ParseInt(IntToString(i)) == Some(i)
  {
    if i < 0 {
      NatToStringRoundTrip(-i);
      assert IntToString(i)[1..] == NatToString(-i);
    } else {
      NatToStringRoundTrip(i);
    }
  }
}

=== FILE: seqs.dfy ===
/** Facts about sequences that several filters of the model share. */
module Seqs {

  /** `a` is obtained from `b` by deleting elements: the elements of `a`
      occur in `b` in the same order. */
  predicate IsSubseq<T(==)>(a: seq<T>, b: seq<T>)
    decreases |b|
  {
    || |a| == 0
    || (&& |b| > 0
        && (|| (a[0] == b[0] && IsSubseq(a[1..], b[1..]))
            || IsSubseq(a, b[1..])))
  }

  /** A subsequence is no longer than the sequence and holds only its
      elements. */
  lemma {:induction false} SubseqMembers<T>(a: seq<T>, b: seq<T>)
    requires IsSubseq(a, b)
    ensures |a| <= |b|
    ensures forall x :: x in a ==> x in b
    decreases |b|
  {
    if |a| == 0 {
    } else if a[0] == b[0] && IsSubseq(a[1..], b[1..]) {
      SubseqMembers(a[1..], b[1..]);
      forall x | x in a
        ensures x in b
      {
        if x != a[0] {
          assert x in a[1..];
        }
      }
    } else {
      SubseqMembers(a, b[1..]);
    }
  }

  /** Python's slice `s[:n]` for a non-negative `n`. */
  function Take<T>(s: seq<T>, n: nat): (r: seq<T>)
    ensures |r| == if n < |s| then n else |s|
    ensures r <= s
  {
    if n < |s| then s[..n] else s
  }

  /** `[f(x) for x in s]`. */
  function Map<A, B>(f: A -> B, s: seq<A>): (r: seq<B>)
    ensures |r| == |s|
    ensures forall i :: 0 <= i < |s| ==> r[i] == f(s[i])
  {
    seq(|s|, i requires 0 <= i < |s| => f(s[i]))
  }

  /** `[x for x in s if p(x)]`: the elements satisfying `p`, in order,
      each as often as it occurs. */
  function Filter<T(==)>(p: T -> bool, s: seq<T>): (r: seq<T>)
    ensures IsSubseq(r, s)
    ensures forall j :: 0 <= j < |r| ==> p(r[j])
    ensures forall i :: 0 <= i < |s| && p(s[i]) ==> s[i] in r
    decreases |s|
  {
    if |s| == 0 then []
    else if p(s[0]) then [s[0]] + Filter(p, s[1..])
    else Filter(p, s[1..])
  }

  /** Mapping distributes over a leading element. */
  lemma MapCons<A, B>(f: A -> B, x: A, s: seq<A>)
    ensures Map(f, [x] + s) == [f(x)] + Map(f, s)
  {
  }

  /** Filtering the images keeps the images of the elements the matching
      filter keeps, in the same order. */
  lemma {:induction false} FilterMap<A, B>(p: A -> bool, q: B -> bool, f: A -> B, s: seq<A>)
    requires forall i :: 0 <= i < |s| ==> (q(f(s[i])) <==> p(s[i]))
    ensures Filter(q, Map(f, s)) == Map(f, Filter(p, s))
    decreases |s|
  {
    if |s| > 0 {
      assert Map(f, s)[1..] == Map(f, s[1..]);
      FilterMap(p, q, f, s[1..]);
      if p(s[0]) {
        MapCons(f, s[0], Filter(p, s[1..]));
      }
    }
  }
}

=== FILE: slack_bot.dfy ===
/**
  The Slack Events endpoint of the mention bot: the order in which a POST to
  `/slack/events` is checked (timestamp, signature, JSON) and how an
  accepted payload is answered.

  The clock is the parameter `now`, a real number of seconds since the
  epoch as `time.time()` gives it; the configured signing secret is the
  parameter `secret` (`None` when the variable is unset); and HMAC-SHA256
  as a hex digest is the uninterpreted parameter `hmac(key, message)`.
 */
module SlackEvents {
  import opened Values
  import Numerals

  /** What the endpoint reads from one request: the raw body text, the two
      Slack headers, and `request.get_json()` (`None` when it raises). */
  datatype Request = Request(
    body: string,
    timestampHeader: Option<string>,
    signatureHeader: Option<string>,
    json: Option<Json>)

  /** An answer produced by the handler (status, JSON body, and the events
      passed to the mention handler), or an exception that escapes it and
      becomes an HTTP 500. */
  datatype Reply =
    | Handled(status: int, body: Object, mentions: seq<Object>)
    | InternalError

  const StatusOk: int := 200
  const BadRequest: int := 400

  /** Five minutes, in seconds. */
  const MaxSkew: real := 300.0

  const TooOld: string := "Request timestamp is too old"
  const BadSignature: string := "Invalid request signature"
  const BadJson: string := "Invalid JSON"

  function ErrorBody(message: string): Object {
    map["error" := JStr(message)]
  }

  /** The three rejections are told apart by their messages. */
  lemma RejectionsDistinct()
    ensures ErrorBody(TooOld) != ErrorBody(BadSignature)
    ensures ErrorBody(TooOld) != ErrorBody(BadJson)
    ensures ErrorBody(BadSignature) != ErrorBody(BadJson)
  {
    assert ErrorBody(TooOld)["error"] == JStr(TooOld);
    assert ErrorBody(BadSignature)["error"] == JStr(BadSignature);
    assert ErrorBody(BadJson)["error"] == JStr(BadJson);
    assert |TooOld| == 28 && |BadSignature| == 25 && |BadJson| == 12;
  }

  function StatusBody(): Object {
    map["status" := JStr("ok")]
  }

  function ChallengeBody(challenge: Json): Object {
    map["challenge" := challenge]
  }

  // ---------------------------------------------------------------------
  // Request signing
  // ---------------------------------------------------------------------

  /** The signature base string: version, timestamp header and body,
      separated by colons. */
  function BaseString(timestamp: string, body: string): (r: string)
    ensures |r| == 4 + |timestamp| + |body|
    ensures r[..3] == "v0:" && r[3..3 + |timestamp|] == timestamp
    ensures r[3 + |timestamp|] == ':' && r[4 + |timestamp|..] == body
  {
    "v0:" + timestamp + ":" + body
  }

  /** The signature the bot expects for a request. */
  function ExpectedSignature(secret: string, timestamp: string, body: string, hmac: (string, string) -> string): (r: string)
    ensures |r| >= 3 && r[..3] == "v0=" && r[3..] == hmac(secret, BaseString(timestamp, body))
  {
    "v0=" + hmac(secret, BaseString(timestamp, body))
  }

  /** `verify_slack_request`: the computed signature equals the header. */
  predicate SignatureValid(secret: string, body: string, timestamp: string, signature: string, hmac: (string, string) -> string) {
    ExpectedSignature(secret, timestamp, body, hmac) == signature
  }

  /** When the timestamp contains no colon, the base string determines
      both the timestamp and the body, so a signature cannot be moved to a
      different split of the same text. */
  lemma BaseStringInjective(t1: string, b1: string, t2: string, b2: string)
    requires ':' !in t1 && ':' !in t2
    requires BaseString(t1, b1) == BaseString(t2, b2)
    ensures t1 == t2 && b1 == b2
  {
  }

  /** A timestamp header that parses as an integer contains no colon, so
      for every request that reaches the signature check the base string is
      unambiguous. */
  lemma ParsedTimestampHasNoColon(s: string)
    requires Numerals.ParseInt(s).Some?
    ensures ':' !in s
  {
  }

  // ---------------------------------------------------------------------
  // The endpoint
  // ---------------------------------------------------------------------

  const TwoTo64: int := 0x1_0000_0000_0000_0000
  const TwoTo320: int := TwoTo64 * TwoTo64 * TwoTo64 * TwoTo64 * TwoTo64
  /** 2^970, the spacing of the largest binary64 floats. */
  const TwoTo970: int := TwoTo320 * TwoTo320 * TwoTo320 * 1024

  /** 2^1024 - 2^970 = (2^54 - 1) * 2^970: halfway between the largest
      binary64 float and 2^1024. An integer of at least this magnitude
      rounds to infinity when Python converts it to a float, which raises
      `OverflowError`. */
  const FloatOverflow: int := (0x40_0000_0000_0000 - 1) * TwoTo970

  /** Python converts the integer to a float without raising. */
  predicate FitsFloat(n: int) {
    -FloatOverflow < n < FloatOverflow
  }

  /** The request time is at most five minutes from the clock, either way. */
  predicate Fresh(now: real, timestamp: int) {
    -MaxSkew <= now - timestamp as real <= MaxSkew
  }

  /** A request that passes the timestamp and signature checks; the
      signature is checked only when a signing secret is configured. */
  predicate Authentic(req: Request, now: real, secret: Option<string>, hmac: (string, string) -> string) {
    var timestamp := req.timestampHeader.GetOr("");
    && Numerals.ParseInt(timestamp).Some?
    && FitsFloat(Numerals.ParseInt(timestamp).value)
    && Fresh(now, Numerals.ParseInt(timestamp).value)
    && (Given(secret) ==> SignatureValid(secret.value, req.body, timestamp, req.signatureHeader.GetOr(""), hmac))
  }

  /** `slack_events`: the answer to one POST. */
  function HandleEvent(req: Request, now: real, secret: Option<string>, hmac: (string, string) -> string): (r: Reply)
    ensures Numerals.ParseInt(req.timestampHeader.GetOr("")).None? ==> r.InternalError?
    ensures Numerals.ParseInt(req.timestampHeader.GetOr("")).Some? && !FitsFloat(Numerals.ParseInt(req.timestampHeader.GetOr("")).value) ==>
      r.InternalError?
    ensures r == Handled(BadRequest, ErrorBody(TooOld), []) <==>
      && Numerals.ParseInt(req.timestampHeader.GetOr("")).Some?
      && FitsFloat(Numerals.ParseInt(req.timestampHeader.GetOr("")).value)
      && !Fresh(now, Numerals.ParseInt(req.timestampHeader.GetOr("")).value)
    ensures r == Handled(BadRequest, ErrorBody(BadSignature), []) <==>
      && Numerals.ParseInt(req.timestampHeader.GetOr("")).Some?
      && FitsFloat(Numerals.ParseInt(req.timestampHeader.GetOr("")).value)
      && Fresh(now, Numerals.ParseInt(req.timestampHeader.GetOr("")).value)
      && Given(secret)
      && !SignatureValid(secret.value, req.body, req.timestampHeader.GetOr(""), req.signatureHeader.GetOr(""), hmac)
    ensures r == Handled(BadRequest, ErrorBody(BadJson), []) <==> Authentic(req, now, secret, hmac) && req.json.None?
    ensures r.Handled? && r.status == StatusOk ==> Authentic(req, now, secret, hmac) && req.json.Some? && req.json.value.JObj?
    ensures r.Handled? ==> |r.mentions| <= 1
  {
    RejectionsDistinct();
    var timestamp := req.timestampHeader.GetOr("");
    var signature := req.signatureHeader.GetOr("");
    match Numerals.ParseInt(timestamp)
    case None => InternalError
    case Some(ts) =>
      if !FitsFloat(ts) then InternalError
      else if !Fresh(now, ts) then Handled(BadRequest, ErrorBody(TooOld), [])
      else if Given(secret) && !SignatureValid(secret.value, req.body, timestamp, signature, hmac) then
        Handled(BadRequest, ErrorBody(BadSignature), [])
      else match req.json
        case None => Handled(BadRequest, ErrorBody(BadJson), [])
        case Some(data) => Dispatch(data)
  }

  /** The answer to an authentic request's parsed payload. */
  function Dispatch(data: Json): (r: Reply)
    ensures !data.JObj? ==> r.InternalError?
    ensures r.Handled? ==> r.status == StatusOk && |r.mentions| <= 1
    ensures r.Handled? && |r.mentions| == 1 ==>
      && Get(data.fields, "type", JNull) == JStr("event_callback")
      && Get(data.fields, "event", JObj(map[])) == JObj(r.mentions[0])
      && Get(r.mentions[0], "type", JNull) == JStr("app_mention")
  {
    match data
    case JObj(fields) =>
      var kind := Get(fields, "type", JNull);
      if kind == JStr("url_verification") then
        Handled(StatusOk, ChallengeBody(Get(fields, "challenge", JNull)), [])
      else if kind == JStr("event_callback") then
        match Get(fields, "event", JObj(map[]))
        case JObj(event) =>
          if Get(event, "type", JNull) == JStr("app_mention") then Handled(StatusOk, StatusBody(), [event])
          else Handled(StatusOk, StatusBody(), [])
        case _ => InternalError
      else Handled(StatusOk, StatusBody(), [])
    case _ => InternalError
  }

  /** A timestamp exactly five minutes away from the clock, in either
      direction, is still accepted; any further away is not. */
  lemma FiveMinuteBoundary(req: Request, ts: int, secret: Option<string>, hmac: (string, string) -> string, beyond: real)
    requires Numerals.ParseInt(req.timestampHeader.GetOr("")) == Some(ts)
    requires FitsFloat(ts)
    requires beyond > 0.0
    ensures HandleEvent(req, ts as real + MaxSkew, secret, hmac) != Handled(BadRequest, ErrorBody(TooOld), [])
    ensures HandleEvent(req, ts as real - MaxSkew, secret, hmac) != Handled(BadRequest, ErrorBody(TooOld), [])
    ensures HandleEvent(req, ts as real + MaxSkew + beyond, secret, hmac) == Handled(BadRequest, ErrorBody(TooOld), [])
    ensures HandleEvent(req, ts as real - MaxSkew - beyond, secret, hmac) == Handled(BadRequest, ErrorBody(TooOld), [])
  {
  }

  /** A header that parses to an integer too large for a float makes the
      clock comparison raise, whatever the clock says: the answer is a 500,
      not "too old". A header of "1" followed by 400 zeros is one. */
  lemma OverflowingTimestampFails(req: Request, now: real, secret: Option<string>, hmac: (string, string) -> string)
    requires Numerals.ParseInt(req.timestampHeader.GetOr("")).Some?
    requires !FitsFloat(Numerals.ParseInt(req.timestampHeader.GetOr("")).value)
    ensures HandleEvent(req, now, secret, hmac) == InternalError
  {
  }

  /** Every timestamp header of up to 300 characters that parses converts
      to a float, so the five-minute check applies to it. */
  lemma ShortTimestampsFit(header: string)
    requires |header| <= 300
    requires Numerals.ParseInt(header).Some?
    ensures FitsFloat(Numerals.ParseInt(header).value)
  {
    Numerals.ParseIntBound(header);
    Numerals.Pow10Monotone(|header|, 300);
    Ten300BelowFloatOverflow();
  }

  /** Every integer of magnitude at least 10^309 overflows, such as the
      value of a header "1" followed by 400 zeros. */
  lemma HugeTimestampsOverflow(n: int)
    requires n <= -(Numerals.Pow10(309) as int) || n >= Numerals.Pow10(309)
    ensures !FitsFloat(n)
  {
    Ten309AboveFloatOverflow();
  }

  /** 10^309 is above the overflow bound (2^1024 is about 1.8 * 10^308). */
  lemma Ten309AboveFloatOverflow()
    ensures Numerals.Pow10(309) > FloatOverflow
  {
    Ten300Value();
    var nine, threeHundred := 9, 300;
    assert Numerals.Pow10(nine) == 1_000_000_000;
    Numerals.Pow10Add(threeHundred, nine);
  }

  /** 10^300 is below the overflow bound (it is about 2^997). */
  lemma Ten300BelowFloatOverflow()
    ensures Numerals.Pow10(300) < FloatOverflow
  {
    Ten300Value();
  }

  const Ten50: int := 100_000_000_000_000_000_000_000_000_000_000_000_000_000_000_000_000

  lemma Ten300Value()
    ensures Numerals.Pow10(300) == Ten50 * Ten50 * Ten50 * Ten50 * Ten50 * Ten50
  {
    var ten := 10;
    assert Numerals.Pow10(ten) == 10_000_000_000;
    var fifty := 5 * ten;
    Numerals.Pow10Add(ten, ten);
    Numerals.Pow10Add(2 * ten, 2 * ten);
    Numerals.Pow10Add(4 * ten, ten);
    assert Numerals.Pow10(fifty) == Ten50;
    Numerals.Pow10Add(fifty, fifty);
    Numerals.Pow10Add(2 * fifty, 2 * fifty);
    Numerals.Pow10Add(4 * fifty, 2 * fifty);
  }

  /** Without a configured secret the signature is never looked at. */
  lemma NoSecretSkipsSignature(req: Request, now: real, secret: Option<string>, h1: (string, string) -> string, h2: (string, string) -> string, signature: Option<string>)
    requires !Given(secret)
    ensures HandleEvent(req, now, secret, h1)
         == HandleEvent(req.(signatureHeader := signature), now, secret, h2)
  {
  }

  /** With a configured secret, a fresh request whose signature does not
      match is rejected before its payload is read. */
  lemma WrongSignatureRejected(req: Request, now: real, secret: Option<string>, hmac: (string, string) -> string)
    requires Given(secret)
    requires Numerals.ParseInt(req.timestampHeader.GetOr("")).Some?
    requires FitsFloat(Numerals.ParseInt(req.timestampHeader.GetOr("")).value)
    requires Fresh(now, Numerals.ParseInt(req.timestampHeader.GetOr("")).value)
    requires !SignatureValid(secret.value, req.body, req.timestampHeader.GetOr(""), req.signatureHeader.GetOr(""), hmac)
    ensures HandleEvent(req, now, secret, hmac) == Handled(BadRequest, ErrorBody(BadSignature), [])
  {
  }

  /** An authentic URL-verification request gets its challenge back
      unchanged, and nothing is passed to the mention handler. */
  lemma ChallengeEchoed(req: Request, now: real, secret: Option<string>, hmac: (string, string) -> string, fields: Object)
    requires Authentic(req, now, secret, hmac)
    requires req.json == Some(JObj(fields))
    requires Get(fields, "type", JNull) == JStr("url_verification")
    ensures HandleEvent(req, now, secret, hmac) == Handled(StatusOk, ChallengeBody(Get(fields, "challenge", JNull)), [])
  {
  }

  /** The mention handler runs, once, exactly for an authentic event
      callback whose event is an `app_mention`. */
  lemma MentionHandledIff(req: Request, now: real, secret: Option<string>, hmac: (string, string) -> string, event: Object)
    ensures (var r := HandleEvent(req, now, secret, hmac); r.Handled? && r.mentions == [event])
      <==>
      && Authentic(req, now, secret, hmac)
      && req.json.Some? && req.json.value.JObj?
      && Get(req.json.value.fields, "type", JNull) == JStr("event_callback")
      && Get(req.json.value.fields, "event", JObj(map[])) == JObj(event)
      && Get(event, "type", JNull) == JStr("app_mention")
  {
  }

  /** Every authentic object payload other than a URL verification is
      acknowledged with `{"status": "ok"}`, unless its `event` is present and
      not an object. */
  lemma AuthenticPayloadAcknowledged(req: Request, now: real, secret: Option<string>, hmac: (string, string) -> string, fields: Object)
    requires Authentic(req, now, secret, hmac)
    requires req.json == Some(JObj(fields))
    requires Get(fields, "type", JNull) != JStr("url_verification")
    requires Get(fields, "type", JNull) == JStr("event_callback") ==> Get(fields, "event", JObj(map[])).JObj?
    ensures HandleEvent(req, now, secret, hmac).Handled?
    ensures HandleEvent(req, now, secret, hmac).status == StatusOk
    ensures HandleEvent(req, now, secret, hmac).body == StatusBody()
  {
  }
}

=== FILE: text.dfy ===
/**
  The string operations the wrappers rely on: ASCII case mapping (Python's
  `str.lower` / `str.upper` restricted to ASCII letters), substring search
  (Python's `needle in haystack`) and stripping a trailing character
  (`str.rstrip(c)`).
 */
module Text {

  predicate IsUpperLetter(c: char) { 'A' <= c <= 'Z' }
  predicate IsLowerLetter(c: char) { 'a' <= c <= 'z' }

  function LowerChar(c: char): char {
    if IsUpperLetter(c) then (c as int - 'A' as int + 'a' as int) as char else c
  }

  function UpperChar(c: char): char {
    if IsLowerLetter(c) then (c as int - 'a' as int + 'A' as int) as char else c
  }

  function Lower(s: string): (r: string)
    ensures |r| == |s|
    ensures forall i :: 0 <= i < |s| ==> r[i] == LowerChar(s[i])
  {
    seq(|s|, i requires 0 <= i < |s| => LowerChar(s[i]))
  }

  function Upper(s: string): (r: string)
    ensures |r| == |s|
    ensures forall i :: 0 <= i < |s| ==> r[i] == UpperChar(s[i])
  {
    seq(|s|, i requires 0 <= i < |s| => UpperChar(s[i]))
  }

  /** Lower-casing leaves no upper-case letter, so doing it twice changes
      nothing. */
  lemma LowerIdempotent(s: string)
    ensures forall i :: 0 <= i < |s| ==> !IsUpperLetter(Lower(s)[i])
    ensures Lower(Lower(s)) == Lower(s)
  {
  }

  /** Upper-casing leaves no lower-case letter, so doing it twice changes
      nothing. */
  lemma UpperIdempotent(s: string)
    ensures forall i :: 0 <= i < |s| ==> !IsLowerLetter(Upper(s)[i])
    ensures Upper(Upper(s)) == Upper(s)
  {
  }

  /** Python's `needle in haystack` on strings: `needle` occurs as a
      contiguous block of `haystack`; the empty string occurs everywhere. */
  predicate Contains(needle: string, haystack: string)
    decreases |haystack|
  {
    || needle <= haystack
    || (|haystack| > 0 && Contains(needle, haystack[1..]))
  }

  /** `needle` is found in `haystack` starting at offset `k`. */
  predicate OccursAt(needle: string, haystack: string, k: int) {
    0 <= k && k + |needle| <= |haystack| && haystack[k..k + |needle|] == needle
  }

  /** Whatever `Contains` accepts occurs at some offset. */
  lemma {:induction false} ContainsHasOffset(needle: string, haystack: string)
    requires Contains(needle, haystack)
    ensures exists k :: OccursAt(needle, haystack, k)
    decreases |haystack|
  {
    if needle <= haystack {
      assert OccursAt(needle, haystack, 0);
    } else {
      ContainsHasOffset(needle, haystack[1..]);
      var k :| OccursAt(needle, haystack[1..], k);
      assert haystack[k + 1..k + 1 + |needle|] == haystack[1..][k..k + |needle|];
      assert OccursAt(needle, haystack, k + 1);
    }
  }

  /** An occurrence at any offset is found by `Contains`. */
  lemma {:induction false} OffsetIsContained(needle: string, haystack: string, k: int)
    requires OccursAt(needle, haystack, k)
    ensures Contains(needle, haystack)
    decreases k
  {
    if k == 0 {
      assert needle <= haystack;
    } else {
      assert haystack[1..][k - 1..k - 1 + |needle|] == haystack[k..k + |needle|];
      OffsetIsContained(needle, haystack[1..], k - 1);
    }
  }

  /** `Contains` is exactly "occurs at some offset". */
  lemma ContainsIff(needle: string, haystack: string)
    ensures Contains(needle, haystack) <==> exists k :: OccursAt(needle, haystack, k)
  {
    if Contains(needle, haystack) {
      ContainsHasOffset(needle, haystack);
    }
    if exists k :: OccursAt(needle, haystack, k) {
      var k :| OccursAt(needle, haystack, k);
      OffsetIsContained(needle, haystack, k);
    }
  }

  /** Python's `s.rstrip(c)` for a single character `c`: the longest prefix
      of `s` that does not end with `c`. */
  function RStrip(s: string, c: char): (r: string)
    ensures r <= s
    ensures |r| == 0 || r[|r| - 1] != c
    ensures forall i :: |r| <= i < |s| ==> s[i] == c
    decreases |s|
  {
    if |s| > 0 && s[|s| - 1] == c then RStrip(s[..|s| - 1], c) else s
  }
}

=== FILE: values.dfy ===
/**
  Values shared by every module of the model: optional values, the JSON
  values that the HTTP APIs exchange, and Python's truthiness rules for
  them.
 */
module Values {

  /** A value that may be missing: Python's `None` for an optional argument,
      or a key that is absent from a dictionary. */
  datatype Option<+T> = None | Some(value: T) {
    function GetOr(default: T): T {
      match this
      case Some(v) => v
      case None => default
    }
  }

  /** An operation that either returns a value or raises an exception that
      nothing in the modelled code catches. */
  datatype Result<+T> = Ok(value: T) | Raised(message: string)

  const SecondsPerHour: int := 3600

  /** The look-back threshold `now - timedelta(hours=hours)`, in seconds. */
  function SinceTime(now: int, hours: int): int {
    now - hours * SecondsPerHour
  }

  /** What `datetime.fromisoformat` makes of a timestamp string: nothing
      (it raises), a naive time without a UTC offset (subtracting an aware
      time from it raises), or an aware time in seconds since the epoch. */
  datatype ParsedTime = Unparseable | Naive | Aware(t: int)

  /** A JSON value. In a decoded API payload, `JTime(t)` stands for an
      ISO-8601 timestamp string that `datetime.fromisoformat` parses to `t`
      seconds since the epoch, and a `JStr` is any other string. A body the
      model builds to post (a search request) keeps its time strings as
      `JStr`, since nothing there parses them. */
  datatype Json =
    | JNull
    | JBool(b: bool)
    | JInt(i: int)
    | JStr(s: string)
    | JTime(t: int)
    | JArr(items: seq<Json>)
    | JObj(fields: Object)

  /** A JSON object, i.e. a Python `dict` with string keys. */
  type Object = map<string, Json>

  /** Python's `d.get(key, default)`: the default is used only when the key
      is absent, never when it is present with the value `None`. */
  function Get(o: Object, key: string, default: Json): Json {
    if key in o then o[key] else default
  }

  /** Python's truth value of a decoded JSON value. */
  predicate Truthy(v: Json) {
    match v
    case JNull => false
    case JBool(b) => b
    case JInt(i) => i != 0
    case JStr(s) => s != ""
    case JTime(_) => true
    case JArr(items) => items != []
    case JObj(fields) => fields != map[]
  }

  /** Python's `if s:` for an `Optional[str]`: neither `None` nor empty. */
  predicate Given(s: Option<string>) {
    s.Some? && s.value != ""
  }
}
